=== FILE: README.md ===
# Daily Task Monitor — a Dafny model of the routine checklist and its reminders

Daily Task Monitor is a household checklist. It keeps a morning list and an
evening list of chores ("Lock main door", "Turn off TV", ...). Family members tick
chores off; each tick is stamped with who did it and when. A reminder hook,
given the two lists and two clock times, raises a persistent reminder at those
times while a list still has open chores. That reminder cannot be dismissed
until the list is complete, and it clears itself once the list is done. A
banner component shows it. The main page does not mount the hook or the
banner; see "## Left out". A small server stores the reminder times and sends a
fixed web-push reminder twice a day.

This project models that behaviour as pure Dafny functions over immutable data
and proves what the code promises about it:

- `tasks.dfy`: the task record, the two lists, and the completion predicate
  everything else is built on.
- `index_page.dfy`: the page state. This covers the five initial chores per
  list, the 06:30 / 22:30 defaults, toggling a chore, and the daily reset.
- `task_management.dfy`: adding (with trimming), editing and deleting chores.
- `notification_system.dfy`: the reminder hook. Its state is
  `{isActive, type, startTime}`. It covers the trigger, the minute-by-minute
  clock check, auto-clearing, and guarded dismissal. It also defines a stepwise
  machine over events and proves invariants that every run of that machine keeps.
- `notification_banner.dfy`: what the banner shows, and when its dismiss button
  is enabled.
- `task_section.dfy`: the completed count, the progress percentage, the
  "all done" mark, and the toggle wiring of each row.
- `history_panel.dfy`: the completed-chores history, newest first.
- `user_data.dfy` and `user_onboarding.dfy`: the local user registry kept in
  browser storage, and the onboarding form.
- `reminder_time_route.dfy`: the server's GET and POST reminder-time routes over
  an abstract document store, including the `"HH:MM"` parsing.
- `scheduler.dfy`: the push broadcast, and the cron expression
  `"30 6,22 * * *"`.
- `reminder_scenarios.dfy`: concrete end-to-end runs of the reminder machine,
  with the hook assumed to be mounted over the page's lists.
- `text.dfy`, `seqs.dfy`, `optional.dfy`: the JavaScript string and array
  operations the code uses (`trim`, `split`, `join`, `Number`, `filter`),
  and an option type.

Time stamps (`Date.now()`, `new Date().toISOString()`) are integer parameters.
Generated ids are parameters. The browser's notification permission is a boolean
parameter. The push transport is a function parameter.

Behaviour that the code has and that a reader might not expect:

- The clock check reads `isActive` as it was before the check began. Both the
  morning branch and the evening branch test that same value. So when the two
  reminder times are equal and both lists are open, two notifications fire and
  the evening state is the one that remains (`NotificationSystem.ClockTick`).
- Dismissal tests only the reminder's `type`, not `isActive`
  (`NotificationSystem.Dismiss`). The hook clears an active reminder as soon as
  its list is complete. So in every reachable state a dismiss request is refused
  (`NotificationSystem.SettledDismissRefused`).
- A login always mints a fresh user id. An existing member with the same name and
  role keeps their old id. So after a returning member logs in, nobody in the
  member list is shown as active (`UserData.ReturningMemberNotMarkedActive`).
- The POST route for reminder times imports `scheduleJobs` from the scheduler
  module. That module exports only `sendReminder`, so the call throws after both
  upserts have been written. The route therefore never answers with success, and
  the new times never affect the cron schedule. The cron schedule is fixed.
  `ReminderTimeRoute.Post` models this as-written behaviour.
- The route parses `"HH:MM"` with `split(':')` and `Number`, and checks no
  ranges: `"25:99"` is stored as hour 25, minute 99.
- With the hook mounted over the page's lists, a daily reset (a manual action)
  does not clear an active reminder by itself.

## Model

| member | source | states |
|---|---|---|
| Tasks.AllCompleted | src/hooks/useNotificationSystem.ts:44-46 | a list counts as complete exactly when every chore in it is completed; the empty list is complete |
| Tasks.AllCompletedIffNoneIncomplete | src/components/NotificationBanner.tsx:31-32 | the banner's "no incomplete chores" test and the hook's every-completed test agree on every list |
| IndexPage.InitialStateFacts | src/pages/Index.tsx:13-30 | the initial lists hold five open, unstamped chores each with distinct ids, and the default reminder times are 06:30 and 22:30 |
| IndexPage.ToggleTasks | src/pages/Index.tsx:46-56 | toggling keeps the list length and every other chore; a matching chore keeps its id and text, flips its completion, and carries user and time stamps exactly when it becomes completed |
| IndexPage.Toggle | src/pages/Index.tsx:42-68 | a toggle on one list leaves the other list untouched |
| IndexPage.ToggleTwiceRestores | src/pages/Index.tsx:47-56 | when the chores with that id are open and unstamped, toggling twice gives back the original list |
| IndexPage.ToggleTwiceRestamps | src/pages/Index.tsx:47-56 | toggling a completed chore twice leaves it completed but re-stamped with the fixed user and the new time |
| IndexPage.ResetTasks | src/pages/Index.tsx:77-90 | a reset keeps ids, texts and order, leaves every chore open and unstamped, and leaves a non-empty list incomplete |
| IndexPage.ResetIdempotent | src/pages/Index.tsx:77-90 | resetting twice is the same as resetting once |
| IndexPage.ResetDaily | src/pages/Index.tsx:77-90 | the daily reset reopens every chore of both lists with ids, texts and lengths kept and no stamps left; a list is complete afterwards only when it is empty |
| TaskManagement.AddTask | src/components/TaskManagement.tsx:34-47 | blank input is refused; otherwise exactly one open, unstamped chore with the trimmed non-blank text is appended after the unchanged old list |
| TaskManagement.EditTask | src/components/TaskManagement.tsx:49-56 | an edit replaces the text of the chores with that id verbatim and changes nothing else, so completeness is unchanged |
| TaskManagement.DeleteTask | src/components/TaskManagement.tsx:58-61 | a chore remains exactly when it was present and has a different id; well-stamped lists stay well-stamped |
| TaskManagement.DeleteAbsentUnchanged | src/components/TaskManagement.tsx:58-61 | deleting an id that is not present returns the list unchanged |
| TaskManagement.DeleteIdempotent | src/components/TaskManagement.tsx:58-61 | deleting the same id twice is the same as deleting it once |
| TaskManagement.DeleteKeepsOrder | src/components/TaskManagement.tsx:58-61 | deletion distributes over concatenation, so survivors keep their relative order |
| Text.Trim | src/components/TaskManagement.tsx:35-38 | a trimmed string has no whitespace at either end and is empty exactly when the input is all whitespace |
| Text.TrimIsSlice | src/components/TaskManagement.tsx:35-38 | the trimmed text is a contiguous slice of the input with only whitespace around it |
| Text.TrimIdempotent | src/components/UserOnboarding.tsx:21-25 | trimming an already trimmed string changes nothing |
| Text.JoinSplit | server/routes/reminderTime.js:18-19 | splitting on a separator and joining back gives the original string |
| Text.SplitJoin | server/routes/reminderTime.js:18-19 | joining separator-free pieces and splitting again gives the pieces back |
| Text.DecimalRoundTrip | src/hooks/useNotificationSystem.ts:56 | the decimal form of a count reads back as that count |
| Text.ToNumber | server/routes/reminderTime.js:18-19 | Number() of blank text is 0, of trimmed digits is their decimal value, and every non-digit form is kept uninterpreted |
| NotificationSystem.Record | src/hooks/useNotificationSystem.ts:11-27 | every phase (idle, or active for a slot since a time) is written as a consistent state record |
| NotificationSystem.PhaseOf | src/hooks/useNotificationSystem.ts:11-27 | a state record reads back as a phase exactly when it is consistent, and writing that phase gives the record back |
| NotificationSystem.PhaseRoundTrip | src/hooks/useNotificationSystem.ts:11-27 | reading a written phase gives the same phase |
| NotificationSystem.AlertBodyStatesCount | src/hooks/useNotificationSystem.ts:55-56 | the alert body is the fixed text around the decimal digits of the count, and those digits decode to the count |
| NotificationSystem.Trigger | src/hooks/useNotificationSystem.ts:48-72 | without permission, or with the list complete, nothing happens; otherwise one alert with the slot's title and the open-chore count is raised and the state becomes active for that slot since now |
| NotificationSystem.ClockTick | src/hooks/useNotificationSystem.ts:97-115 | a slot fires exactly when the clock equals its time, the pre-tick state is inactive, permission is granted and its list is open; each firing slot adds one alert with its title and its open-chore count, in morning-then-evening order, and the evening write wins |
| NotificationSystem.AutoClear | src/hooks/useNotificationSystem.ts:121-133 | an active reminder whose list is complete is cleared; any other state is left as it is |
| NotificationSystem.Dismiss | src/hooks/useNotificationSystem.ts:135-149 | a dismissal is accepted exactly when a reminder type is set and its list is complete; an accepted one clears the state, a refused one changes nothing |
| NotificationSystem.Step | src/hooks/useNotificationSystem.ts:97-149 | one event followed by the auto-clear effect changes times and permission only on new inputs and the lists only on a task change, keeps the record consistent, never leaves a reminder active over a complete list, and clears on an accepted dismissal |
| NotificationSystem.Run | src/hooks/useNotificationSystem.ts:97-149 | a run of events keeps times and permission when no new inputs arrive and the lists when no task change occurs, keeps the record consistent, and any non-empty run ends settled whatever the starting record |
| NotificationSystem.StepKeepsInvariants | src/hooks/useNotificationSystem.ts:97-149 | each event keeps the state record consistent and never leaves a reminder active over a complete list |
| NotificationSystem.RunKeepsInvariants | src/hooks/useNotificationSystem.ts:97-149 | every run of events from a settled state keeps the record consistent and settled |
| NotificationSystem.SettledDismissRefused | src/hooks/useNotificationSystem.ts:121-149 | in every settled state a dismiss request is refused |
| NotificationSystem.CompletingClears | src/hooks/useNotificationSystem.ts:122-133 | completing the active reminder's list clears the reminder |
| NotificationBanner.Banner | src/components/NotificationBanner.tsx:29-104 | the banner is hidden exactly when the reminder is inactive or has no type; otherwise it lists the first three open chores, counts the rest, pluralises unless exactly one is open, and disables dismiss exactly when the list is incomplete |
| NotificationBanner.HandleDismiss | src/components/NotificationBanner.tsx:29-40 | a dismiss click raises the failure alert exactly when some chore of the slot is still open, which is exactly when the hook refuses; a refusal keeps the record, an acceptance clears it |
| NotificationBanner.BannerAgreesWithHook | src/components/NotificationBanner.tsx:34-104 | the button is disabled exactly when the hook would refuse the dismissal, so whenever a click would raise the failure alert the button is disabled |
| TaskSection.CompletedCount | src/components/TaskSection.tsx:27-28 | the completed count is the number of positions holding a completed chore; it equals the list length exactly when the list is complete, and is zero exactly when nothing is completed |
| TaskSection.CountIsCompletedPositions | src/components/TaskSection.tsx:27 | the length of the completed filter equals the number of positions holding a completed chore |
| TaskSection.AllDone | src/components/TaskSection.tsx:61 | the done mark shows exactly when the list is non-empty and complete in the hook's sense |
| TaskSection.EmptyListCompleteButNotDone | src/components/TaskSection.tsx:61 | an empty list is complete for the reminder but never shows the done mark |
| TaskSection.Progress | src/components/TaskSection.tsx:29 | progress is undefined for an empty list and otherwise is the completed count times 100 divided by the list length, so it lies between 0 and 100, reaching 100 exactly when complete and 0 exactly when nothing is done |
| TaskSection.Rows | src/components/TaskSection.tsx:82-88 | there is one row per chore, in order, each carrying that chore's id for its toggle |
| TaskSection.RowClickTogglesOwnTask | src/components/TaskSection.tsx:82-88 | with distinct ids, clicking a row toggles that row's chore and no other |
| HistoryPanel.Insert | src/components/HistoryPanel.tsx:25-29 | inserting an entry keeps every entry and adds exactly the new one |
| HistoryPanel.Combined | src/components/HistoryPanel.tsx:22-29 | the history is a permutation of the completed chores of both lists, and a chore appears in it exactly when it is a completed chore of either list |
| HistoryPanel.SortNewestFirst | src/components/HistoryPanel.tsx:25-29 | the history sort is a permutation of its input |
| HistoryPanel.SortOrders | src/components/HistoryPanel.tsx:26-29 | when every entry carries a time stamp, the sorted history is newest first |
| HistoryPanel.CombinedFacts | src/components/HistoryPanel.tsx:22-29 | the history holds exactly the completed chores of both lists, and is newest first when the lists are well stamped |
| HistoryPanel.EmptyMessageIffNothingDone | src/components/HistoryPanel.tsx:89-91 | the empty-history message shows exactly when neither list has a completed chore |
| HistoryPanel.UnstampedEntryBreaksOrder | src/components/HistoryPanel.tsx:27 | an entry without a time stamp compares equal to everything, so the history need not be newest first |
| UserData.Load | src/hooks/useUserData.ts:23-37 | mounting reads the current user and the member list from storage, and is a first visit exactly when no current user is stored |
| UserData.MountSynced | src/hooks/useUserData.ts:23-37 | right after mounting, the session agrees with storage |
| UserData.Login | src/hooks/useUserData.ts:39-68 | login makes the new user current and stored; the stored members gain the user exactly when no member had that name and role; storage keeps every key it had, gains the current-user key and, exactly when the pair is new, the members key, and no other key changes |
| UserData.LoginKeepsPairsUnique | src/hooks/useUserData.ts:53-65 | login keeps member name-and-role pairs unique and makes the logged-in pair present |
| UserData.ReturningMemberNotMarkedActive | src/hooks/useUserData.ts:39-98 | when a returning member logs in under a fresh id, no member in the list is shown as active |
| UserData.Rename | src/hooks/useUserData.ts:70-85 | a rename without a current user does nothing; otherwise it renames the current user and the member with the same id, keeps the list length, writes exactly the two registry keys, and leaves every other storage key as it was, keeping storage in step |
| UserData.Logout | src/hooks/useUserData.ts:87-91 | logout removes exactly the current-user key from storage and leaves every other key as it was, forgets the current user, marks a first visit, and keeps the members |
| UserData.WithActiveStatus | src/hooks/useUserData.ts:93-98 | a member is shown active exactly when their id is the current user's id |
| UserOnboarding.Submit | src/components/UserOnboarding.tsx:19-29 | a blank name or role leaves the form unchanged; otherwise the form is marked submitting and the trimmed profile is scheduled |
| UserOnboarding.TimerFires | src/components/UserOnboarding.tsx:24-27 | the timer delivers the oldest scheduled profile, keeps the typed name and role, and clears the submitting flag |
| UserOnboarding.SubmitDisabled | src/components/UserOnboarding.tsx:92 | the button is disabled while submitting; an enabled button always leads to an accepted submission, and a disabled one with the flag down stands for a submit that does nothing |
| UserOnboarding.BlankSubmitDoesNothing | src/components/UserOnboarding.tsx:19-29 | on a fresh form, a submit with a blank field schedules nothing and leaves the button disabled |
| UserOnboarding.SubmitThenTimer | src/components/UserOnboarding.tsx:19-29 | submitting valid fields and letting the timer fire disables the button while submitting, then delivers the trimmed name and role once and clears the submitting flag |
| ReminderTimeRoute.ParseTime | server/routes/reminderTime.js:18-19 | text without a colon gives an hour and a missing minute; the hour is always present |
| ReminderTimeRoute.ParseTimeDigits | server/routes/reminderTime.js:18-19 | "H:M" built from digit strings parses to their decimal values |
| ReminderTimeRoute.NoRangeCheck | server/routes/reminderTime.js:17-32 | out-of-range times are parsed as given: "25:99" becomes hour 25, minute 99 |
| ReminderTimeRoute.Upsert | server/routes/reminderTime.js:21-32 | after an upsert the slot's first document holds the new values, the other slot reads as before, an absent slot is appended, and unique slots stay unique |
| ReminderTimeRoute.Post | server/routes/reminderTime.js:14-36 | a missing field throws before any write; otherwise both slots are upserted and the reschedule call throws; the store grows by at most two and no call answers with success |
| ReminderTimeRoute.PostWritesDespiteFailure | server/routes/reminderTime.js:14-36 | a well-formed POST stores both parsed times even though the request ends in an error |
| ReminderTimeRoute.Get | server/routes/reminderTime.js:7-11 | GET answers the first stored document, and creates one only when the store is empty |
| ReminderTimeRoute.GetCreatesAtMostOnce | server/routes/reminderTime.js:8-10 | a second GET after a successful one finds the document and creates nothing |
| Scheduler.FailureCount | server/jobs/scheduler.js:13-19 | the number of logged failures is at most the number of attempts, and zero exactly when every attempt was delivered |
| Scheduler.SendReminder | server/jobs/scheduler.js:5-20 | each subscription gets exactly one attempt with the fixed reminder payload and its own outcome; the logged failures are the failed attempts, and nothing is logged exactly when every send succeeds |
| Scheduler.DeliveredPlusFailed | server/jobs/scheduler.js:13-19 | every attempt is either delivered or logged as a failure, never both |
| Scheduler.ReminderScheduleFires | server/jobs/scheduler.js:22-26 | the cron expression fires exactly at minute 30 of hours 6 and 22 |
| ReminderScenarios.TwoTaskMorning | src/hooks/useNotificationSystem.ts:103-149 | with the hook fed the page's toggles, at 06:30 with two open morning chores the reminder activates; a dismiss is refused; one toggle keeps it active; the second toggle clears it |
| ReminderScenarios.EmptySlotNeverFires | src/hooks/useNotificationSystem.ts:44-54 | a slot whose list is empty is complete and never raises a reminder |
| ReminderScenarios.ResetKeepsActiveReminder | src/hooks/useNotificationSystem.ts:121-133 | with the hook fed the page's lists, resetting them while a reminder is active for a non-empty list leaves it active |
| ReminderScenarios.InitialHookSettled | src/hooks/useNotificationSystem.ts:23-27 | a hook mounted over the page's initial lists starts with the cleared record, which is consistent and settled while both lists are open |

## Left out

- The page component (src/pages/Index.tsx) keeps the two lists and the reminder times as its own state, and never mounts `useNotificationSystem` or renders `NotificationBanner`. No file does. The lemmas of `ReminderScenarios` assume the hook is mounted over the page's lists. `NotificationBanner.HandleDismiss` and `NotificationBanner.BannerAgreesWithHook` assume the banner receives the hook's record, its slot's list and `dismissNotification`. That wiring is a composition the model chooses, not behaviour of the page.
- Rendering, styling, icons, toasts and dark mode: they are presentation only. The `alert()` call of the dismiss handler is a browser side effect; `NotificationBanner.HandleDismiss` records only whether it happens. The banner's shown values are modelled (`NotificationBanner.Banner`); the markup is not.
- The browser permission request (src/hooks/useNotificationSystem.ts:31-42): this is an external API. Permission is a boolean input.
- The 5-second per-notification interval (src/hooks/useNotificationSystem.ts:75-86): it reads the chore lists captured when the reminder fired, so in practice it never clears anything. The auto-clear effect at lines 121-133 is the clearing path that is modelled.
- `notif.close()`, the notification icon, `requireInteraction`, the `Date.now()` tag and the click-to-focus handler: these are browser side effects with no state in the hook.
- The one-minute `setInterval` and `toTimeString().slice(0, 5)`: the clock string is an input to `NotificationSystem.ClockTick`.
- NotificationSystem.ClockTick: time stamps are abstract integers, and the ISO formatting of `startTime` is not modelled.
- `localStorage` serialisation with `JSON.stringify`/`JSON.parse`: storage is a map from key to a typed value. Malformed stored JSON is not modelled.
- Id generation (`Date.now()`, `Math.random()`): ids are parameters supplied by the caller.
- TaskSection.Progress: uses exact real arithmetic. It does not model IEEE rounding or the `Math.round` of the label.
- HistoryPanel.SortNewestFirst: modelled as a stable insertion sort. `Array.prototype.sort` with a comparator that is not a total order has an engine-defined result, so order is claimed only when every entry is stamped.
- Date formatting in the history panel: presentation only.
- Text.ToNumber: interprets only blank text and plain decimal digits, and keeps their exact integer value, whereas JavaScript's `Number` rounds digit strings above 2^53 to the nearest double ("9007199254740993" becomes 9007199254740992). Signs, fractions, exponents, hexadecimal, `Infinity` and NaN are kept as uninterpreted text.
- ReminderTimeRoute.Post: request bodies whose fields are not strings are not modelled. Mongoose's cast of `hour`/`minute` to Number is not modelled either. In the real route a piece that `Number` turns into NaN fails that cast at the upsert that carries it. So a NaN only in `night` leaves the new morning document written, and a NaN in `morning` writes nothing. The model instead writes the piece as `Uninterpreted` text and goes on.
- ReminderTimeRoute.Get: whether `ReminderTime.create({})` succeeds is a parameter. As written it always fails, because the schema in server/models/ReminderTime.js:6-10 requires `timeOfDay` and `{}` has none. So `created == None` is the case the code produces: an empty collection gets no document and no reply. A `Some` argument stands for a store that accepts the insert.
- Express's handling of a rejected async handler (no response is sent): modelled as a `Threw` reply.
- Scheduler.SendReminder: the `forEach(async ...)` sends are not awaited and run concurrently. They are modelled in order, because each outcome is independent. The error log text is not modelled.
- The cron library: `Scheduler.CronMatches` understands only `*` and comma-separated number lists, which is what the one expression uses.
- web-push/VAPID setup, the service worker, the subscription and history routes, the test-push endpoint in server/index.js, and src/utils/pushNotifications.ts: context outside this model.
- TaskManagement's form state (`editingId`, `editText`, `newTaskText`, `showAddForm`, `startEdit`, `cancelEdit`): UI state only.

=== FILE: history_panel.dfy ===
/**
 * The "Recent Activity" list: the completed tasks of both lists, newest first
 * (src/components/HistoryPanel.tsx).
 */
module HistoryPanel {
  import opened Optional
  import opened Seqs
  import opened Tasks

  /** The completion time used for ordering; a missing stamp reads as 0 but is never compared. */
  function Time(t: Task): int {
    match t.completedAt
    case Some(v) => v
    case None => 0
  }

  /**
   * The sort comparator as written: 0 when either task lacks `completedAt`,
   * otherwise negative exactly when `a` is the newer one.
   */
  function Compare(a: Task, b: Task): int {
    if a.completedAt.None? || b.completedAt.None? then 0
    else Time(b) - Time(a)
  }

  predicate Timed(s: seq<Task>) {
    forall i :: 0 <= i < |s| ==> s[i].completedAt.Some?
  }

  predicate NewestFirst(s: seq<Task>) {
    forall i, j :: 0 <= i < j < |s| ==> Time(s[i]) >= Time(s[j])
  }

  /** Stable insertion: `x` goes in front of the first element it need not follow. */
  function Insert(x: Task, s: seq<Task>): (r: seq<Task>)
    ensures |r| == |s| + 1
    ensures multiset(r) == multiset(s) + multiset{x}
    ensures forall y :: y in r <==> y == x || y in s
  {
    if |s| == 0 then [x]
    else if Compare(x, s[0]) <= 0 then [x] + s
    else
      assert s == [s[0]] + s[1..];
      [s[0]] + Insert(x, s[1..])
  }

  /** The array sort with that comparator, modelled as a stable insertion sort. */
  function SortNewestFirst(s: seq<Task>): (r: seq<Task>)
    ensures multiset(r) == multiset(s)
    ensures |r| == |s|
  {
    if |s| == 0 then []
    else
      assert s == [s[0]] + s[1..];
      Insert(s[0], SortNewestFirst(s[1..]))
  }

  lemma {:induction false} InsertKeepsOrder(x: Task, s: seq<Task>)
    requires Timed(s) && x.completedAt.Some? && NewestFirst(s)
    ensures Timed(Insert(x, s)) && NewestFirst(Insert(x, s))
  {
    var r := Insert(x, s);
    if |s| > 0 && Compare(x, s[0]) > 0 {
      InsertKeepsOrder(x, s[1..]);
      var tail := Insert(x, s[1..]);
      assert r == [s[0]] + tail;
      forall j | 0 <= j < |tail| ensures Time(s[0]) >= Time(tail[j]) {
        assert tail[j] in tail;
        if tail[j] != x {
          var k :| 0 <= k < |s[1..]| && s[1..][k] == tail[j];
          assert s[1..][k] == s[k + 1];
        }
      }
    }
  }

  /** With every entry stamped, the sort orders by non-increasing completion time. */
  lemma {:induction false} SortOrders(s: seq<Task>)
    requires Timed(s)
    ensures Timed(SortNewestFirst(s)) && NewestFirst(SortNewestFirst(s))
  {
    if |s| > 0 {
      SortOrders(s[1..]);
      InsertKeepsOrder(s[0], SortNewestFirst(s[1..]));
    }
  }

  /** `[...completedMorningTasks, ...completedNightTasks].sort(...)`. */
  function Combined(morning: seq<Task>, night: seq<Task>): (r: seq<Task>)
    ensures multiset(r) == multiset(CompletedOf(morning) + CompletedOf(night))
    ensures forall t :: t in r <==> (t in morning || t in night) && t.completed
  {
    var all := CompletedOf(morning) + CompletedOf(night);
    var r := SortNewestFirst(all);
    assert forall t :: t in r <==> t in multiset(r);
    assert forall t :: t in all <==> t in multiset(all);
    r
  }

  /** The "no completed tasks yet" message. */
  predicate ShowsEmptyMessage(morning: seq<Task>, night: seq<Task>) {
    |Combined(morning, night)| == 0
  }

  /**
   * The combined list holds exactly the completed tasks of both lists, each as
   * often as it occurs there; and when the lists keep their stamps in step with
   * their flags, it runs newest first.
   */
  lemma CombinedFacts(morning: seq<Task>, night: seq<Task>)
    ensures multiset(Combined(morning, night)) == multiset(CompletedOf(morning) + CompletedOf(night))
    ensures forall i :: 0 <= i < |Combined(morning, night)| ==> Combined(morning, night)[i].completed
    ensures AllWellStamped(morning) && AllWellStamped(night) ==> NewestFirst(Combined(morning, night))
  {
    var all := CompletedOf(morning) + CompletedOf(night);
    var c := Combined(morning, night);
    forall i | 0 <= i < |c| ensures c[i].completed {
      assert c[i] in multiset(all);
      assert c[i] in all;
    }
    if AllWellStamped(morning) && AllWellStamped(night) {
      forall i | 0 <= i < |all| ensures all[i].completedAt.Some? {
        assert all[i] in CompletedOf(morning) || all[i] in CompletedOf(night);
      }
      SortOrders(all);
    }
  }

  /** The empty-state message shows exactly when neither list has a completed task. */
  lemma EmptyMessageIffNothingDone(morning: seq<Task>, night: seq<Task>)
    ensures ShowsEmptyMessage(morning, night) <==>
      (forall i :: 0 <= i < |morning| ==> !morning[i].completed) &&
      (forall i :: 0 <= i < |night| ==> !night[i].completed)
  {
    FilterEmptyIff(IsDone, morning);
    FilterEmptyIff(IsDone, night);
  }

  /**
   * Without the stamps the order is not guaranteed: an unstamped entry compares
   * equal to everything, so an older entry can end up ahead of a newer one.
   */
  lemma UnstampedEntryBreaksOrder()
    ensures var older := Task("a", "A", true, Some("u"), Some(1));
      var unstamped := Task("b", "B", true, Some("u"), None);
      var newer := Task("c", "C", true, Some("u"), Some(5));
      SortNewestFirst([older, unstamped, newer]) == [older, unstamped, newer]
  {
    var older := Task("a", "A", true, Some("u"), Some(1));
    var unstamped := Task("b", "B", true, Some("u"), None);
    var newer := Task("c", "C", true, Some("u"), Some(5));
    assert [older, unstamped, newer][1..] == [unstamped, newer];
    assert [unstamped, newer][1..] == [newer];
    assert SortNewestFirst([newer]) == [newer];
    assert Insert(unstamped, [newer]) == [unstamped, newer];
    assert Insert(older, [unstamped, newer]) == [older, unstamped, newer];
  }
}

=== FILE: index_page.dfy ===
/**
 * The home page's task state: the two initial lists, the default reminder
 * times, toggling one task and resetting the day (src/pages/Index.tsx).
 */
module IndexPage {
  import opened Optional
  import opened Tasks
  import opened Reminders

  /** The page stamps every toggle with this fixed placeholder user. */
  const ToggleUser := "User 1"

  function Fresh(id: string, text: string): Task {
    Task(id, text, false, None, None)
  }

  const InitialMorning: seq<Task> := [
    Fresh("1", "Turn off lights"),
    Fresh("2", "Turn off gas oven"),
    Fresh("3", "Lock main door"),
    Fresh("4", "Lock bathroom"),
    Fresh("5", "Turn off heater")
  ]

  const InitialNight: seq<Task> := [
    Fresh("6", "Turn off all lights"),
    Fresh("7", "Turn off TV"),
    Fresh("8", "Lock stair gate"),
    Fresh("9", "Lock main gate"),
    Fresh("10", "Check all windows")
  ]

  const InitialBoard := Board(InitialMorning, InitialNight)

  const DefaultReminderTimes := ReminderTimes("06:30", "22:30")

  /** The page starts with ten distinct ids, nothing done, and reminders at 06:30 and 22:30. */
  lemma InitialStateFacts()
    ensures DistinctIds(InitialMorning + InitialNight)
    ensures |InitialMorning| == 5 && |InitialNight| == 5
    ensures !AllCompleted(InitialMorning) && !AllCompleted(InitialNight)
    ensures forall i :: 0 <= i < |InitialMorning + InitialNight| ==>
      var t := (InitialMorning + InitialNight)[i]; !t.completed && WellStamped(t)
    ensures DefaultReminderTimes.morning == "06:30" && DefaultReminderTimes.night == "22:30"
  {
    var all := InitialMorning + InitialNight;
    assert all == [Fresh("1", "Turn off lights"), Fresh("2", "Turn off gas oven"),
                   Fresh("3", "Lock main door"), Fresh("4", "Lock bathroom"),
                   Fresh("5", "Turn off heater"), Fresh("6", "Turn off all lights"),
                   Fresh("7", "Turn off TV"), Fresh("8", "Lock stair gate"),
                   Fresh("9", "Lock main gate"), Fresh("10", "Check all windows")];
    assert !InitialMorning[0].completed && !InitialNight[0].completed;
  }

  /** One task after a toggle: the flag flips and the stamps follow the new flag. */
  function Flip(t: Task, user: string, now: int): Task {
    var done := !t.completed;
    t.(completed := done,
       completedBy := if done then Some(user) else None,
       completedAt := if done then Some(now) else None)
  }

  /**
   * `toggleTask` on one list: every task whose id matches flips, stamped with
   * `user` and `now` when it becomes completed and cleared otherwise; every
   * other task, the length and the order stay as they were.
   */
  function ToggleTasks(tasks: seq<Task>, id: string, user: string, now: int): (r: seq<Task>)
    ensures |r| == |tasks|
    ensures forall i :: 0 <= i < |tasks| && tasks[i].id != id ==> r[i] == tasks[i]
    ensures forall i :: 0 <= i < |tasks| && tasks[i].id == id ==>
      && r[i].id == id
      && r[i].text == tasks[i].text
      && r[i].completed == !tasks[i].completed
      && r[i].completedBy == (if r[i].completed then Some(user) else None)
      && r[i].completedAt == (if r[i].completed then Some(now) else None)
    ensures AllWellStamped(tasks) ==> AllWellStamped(r)
  {
    seq(|tasks|, i requires 0 <= i < |tasks| =>
      if tasks[i].id == id then Flip(tasks[i], user, now) else tasks[i])
  }

  /** `toggleTask(taskId, isMorning)`: only the chosen list changes. */
  function Toggle(b: Board, id: string, isMorning: bool, now: int): (r: Board)
    ensures isMorning ==> r.night == b.night && r.morning == ToggleTasks(b.morning, id, ToggleUser, now)
    ensures !isMorning ==> r.morning == b.morning && r.night == ToggleTasks(b.night, id, ToggleUser, now)
  {
    if isMorning then b.(morning := ToggleTasks(b.morning, id, ToggleUser, now))
    else b.(night := ToggleTasks(b.night, id, ToggleUser, now))
  }

  /** Toggling an incomplete, unstamped task twice gives back the list it started from. */
  lemma ToggleTwiceRestores(tasks: seq<Task>, id: string, u1: string, n1: int, u2: string, n2: int)
    requires forall i :: 0 <= i < |tasks| && tasks[i].id == id ==>
      !tasks[i].completed && tasks[i].completedBy.None? && tasks[i].completedAt.None?
    ensures ToggleTasks(ToggleTasks(tasks, id, u1, n1), id, u2, n2) == tasks
  {
    var once := ToggleTasks(tasks, id, u1, n1);
    var twice := ToggleTasks(once, id, u2, n2);
    forall i | 0 <= i < |tasks|
      ensures twice[i] == tasks[i]
    {
      if tasks[i].id == id {
        assert once[i].id == id;
      }
    }
  }

  /** Toggling a completed task twice keeps it completed but re-stamps it with the second toggle. */
  lemma ToggleTwiceRestamps(tasks: seq<Task>, id: string, u1: string, n1: int, u2: string, n2: int, i: int)
    requires 0 <= i < |tasks| && tasks[i].id == id && tasks[i].completed
    ensures var twice := ToggleTasks(ToggleTasks(tasks, id, u1, n1), id, u2, n2);
      twice[i] == tasks[i].(completedBy := Some(u2), completedAt := Some(n2))
  {
    var once := ToggleTasks(tasks, id, u1, n1);
    assert once[i].id == id;
  }

  /** `resetDailyTasks` on one list: everything incomplete and unstamped, ids and texts kept in order. */
  function ResetTasks(tasks: seq<Task>): (r: seq<Task>)
    ensures |r| == |tasks|
    ensures forall i :: 0 <= i < |r| ==>
      && r[i].id == tasks[i].id
      && r[i].text == tasks[i].text
      && !r[i].completed
      && r[i].completedBy.None?
      && r[i].completedAt.None?
    ensures AllWellStamped(r)
    ensures AllCompleted(r) <==> |tasks| == 0
  {
    seq(|tasks|, i requires 0 <= i < |tasks| =>
      tasks[i].(completed := false, completedBy := None, completedAt := None))
  }

  /** `resetDailyTasks`: both lists are reset. */
  function ResetDaily(b: Board): (r: Board)
    ensures |r.morning| == |b.morning| && |r.night| == |b.night|
    ensures forall i :: 0 <= i < |r.morning| ==>
      r.morning[i].id == b.morning[i].id && r.morning[i].text == b.morning[i].text && !r.morning[i].completed
    ensures forall i :: 0 <= i < |r.night| ==>
      r.night[i].id == b.night[i].id && r.night[i].text == b.night[i].text && !r.night[i].completed
    ensures AllWellStamped(r.morning) && AllWellStamped(r.night)
    ensures AllCompleted(r.morning) <==> |b.morning| == 0
    ensures AllCompleted(r.night) <==> |b.night| == 0
  {
    Board(ResetTasks(b.morning), ResetTasks(b.night))
  }

  /** Resetting a reset board changes nothing. */
  lemma ResetIdempotent(b: Board)
    ensures ResetDaily(ResetDaily(b)) == ResetDaily(b)
  {
    var once := ResetDaily(b);
    assert ResetTasks(once.morning) == once.morning;
    assert ResetTasks(once.night) == once.night;
  }
}

=== FILE: notification_banner.dfy ===
/**
 * What the in-app reminder banner shows and how its dismiss button behaves
 * (src/components/NotificationBanner.tsx). Styling and icons are not modelled;
 * the view keeps the facts the markup is built from. The banner's props are
 * taken to be the hook's record and the list of its slot.
 */
module NotificationBanner {
  import opened Optional
  import opened Tasks
  import NotificationSystem

  /** At most this many open tasks are listed by name. */
  const ListedLimit := 3

  datatype BannerView = BannerView(
    heading: string,
    allCompleted: bool,
    incompleteCount: nat,
    listed: seq<string>,
    moreCount: Option<nat>,
    plural: bool,
    dismissDisabled: bool)

  function Min(a: nat, b: nat): nat {
    if a <= b then a else b
  }

  function Heading(slot: Slot): string {
    match slot
    case Morning => "Morning Routine"
    case Evening => "Evening Routine"
  }

  /** The texts of the first `k` tasks of `tasks`. */
  function TextsOf(tasks: seq<Task>, k: nat): (r: seq<string>)
    requires k <= |tasks|
    ensures |r| == k && forall i :: 0 <= i < k ==> r[i] == tasks[i].text
  {
    seq(k, i requires 0 <= i < k => tasks[i].text)
  }

  /**
   * The banner for the given props: nothing unless active with a type. Otherwise
   * the open tasks are counted, the first three are listed in order, an
   * "... and N more" line counts the rest when there are more than three, the
   * word "task" takes an "s" unless exactly one is open, and the dismiss button
   * is disabled until every task is completed.
   */
  function Banner(isActive: bool, kind: Option<Slot>, tasks: seq<Task>): (r: Option<BannerView>)
    ensures r.None? <==> !isActive || kind.None?
    ensures r.Some? ==>
      var v := r.value;
      var open := Incomplete(tasks);
      && v.heading == Heading(kind.value)
      && (v.allCompleted <==> AllCompleted(tasks))
      && v.incompleteCount == |open|
      && |v.listed| == Min(ListedLimit, |open|)
      && (forall i :: 0 <= i < |v.listed| ==> v.listed[i] == open[i].text)
      && (v.moreCount.Some? <==> |open| > ListedLimit)
      && (v.moreCount.Some? ==> |v.listed| + v.moreCount.value == |open|)
      && (v.plural <==> |open| != 1)
      && (v.dismissDisabled <==> !AllCompleted(tasks))
  {
    if !isActive || kind.None? then None
    else
      var open := Incomplete(tasks);
      var allCompleted := |open| == 0;
      AllCompletedIffNoneIncomplete(tasks);
      Some(BannerView(
        Heading(kind.value),
        allCompleted,
        |open|,
        TextsOf(open, Min(ListedLimit, |open|)),
        if |open| > ListedLimit then Some(|open| - ListedLimit) else None,
        |open| != 1,
        !allCompleted))
  }

  /** A click on the dismiss button: the hook's answer and whether the failure alert pops up. */
  datatype DismissClick = DismissClick(dismissal: NotificationSystem.Dismissal, alertShown: bool)

  /**
   * `handleDismiss`, which exists only while the banner is rendered, with
   * `onDismiss` taken to be the hook's `dismissNotification`: the hook is asked
   * to dismiss, and the "complete all tasks" alert appears when it
   * refuses while tasks are open. The alert appears exactly when some task of
   * the slot is still open, and exactly when the hook refuses.
   */
  function HandleDismiss(s: NotificationSystem.NotificationState, b: Board): (r: DismissClick)
    requires s.isActive && s.kind.Some?
    ensures var tasks := TasksFor(b, s.kind.value);
      r.alertShown <==> exists i :: 0 <= i < |tasks| && !tasks[i].completed
    ensures r.alertShown <==> !r.dismissal.accepted
    ensures r.alertShown ==> r.dismissal.state == s
    ensures !r.alertShown ==> r.dismissal.state == NotificationSystem.Cleared
  {
    var v := Banner(s.isActive, s.kind, TasksFor(b, s.kind.value)).value;
    var d := NotificationSystem.Dismiss(s, b);
    DismissClick(d, !d.accepted && !v.allCompleted)
  }

  /**
   * Given the active slot's own list, the banner and the hook agree: the button
   * is enabled exactly when the hook would accept the dismissal. So whenever a
   * click would raise the failure alert the button is disabled, and the alert
   * cannot be reached through the button.
   */
  lemma BannerAgreesWithHook(s: NotificationSystem.NotificationState, b: Board)
    requires NotificationSystem.Consistent(s) && s.isActive
    ensures var v := Banner(s.isActive, s.kind, TasksFor(b, s.kind.value)).value;
      && (v.dismissDisabled <==> !NotificationSystem.Dismiss(s, b).accepted)
      && (HandleDismiss(s, b).alertShown ==> v.dismissDisabled)
  {
  }
}

=== FILE: notification_system.dfy ===
/**
 * The client-side reminder state machine (src/hooks/useNotificationSystem.ts).
 * The hook keeps a record `{isActive, type, startTime}`; four operations act
 * on it: trigger, the once-a-minute clock check, the auto-clear effect that
 * runs whenever the tasks or the record change, and dismiss. Permission, the
 * clock string and the current timestamp are inputs of each step.
 */
module NotificationSystem {
  import opened Optional
  import opened Text
  import opened Tasks
  import opened Reminders

  /** The hook's record, field for field (`kind` is the hook's `type`); `startTime` is an integer timestamp. */
  datatype NotificationState = NotificationState(isActive: bool, kind: Option<Slot>, startTime: Option<int>)

  /** The record every clearing write stores, and the initial one. */
  const Cleared := NotificationState(false, None, None)

  /** The three fields agree: active exactly when a type and a start time are set. */
  predicate Consistent(s: NotificationState) {
    s.isActive == s.kind.Some? && s.kind.Some? == s.startTime.Some?
  }

  /** What a consistent record means: no reminder, or a reminder for a slot since a start time. */
  datatype Phase = Idle | Active(slot: Slot, start: int)

  function Record(p: Phase): (s: NotificationState)
    ensures Consistent(s)
    ensures s.isActive <==> p.Active?
  {
    match p
    case Idle => Cleared
    case Active(slot, start) => NotificationState(true, Some(slot), Some(start))
  }

  /** The phase a record stands for, or `None` when its fields disagree. */
  function PhaseOf(s: NotificationState): (p: Option<Phase>)
    ensures p.Some? <==> Consistent(s)
    ensures p.Some? ==> Record(p.value) == s
  {
    if !Consistent(s) then None
    else if s.isActive then Some(Active(s.kind.value, s.startTime.value))
    else Some(Idle)
  }

  /** Recording a phase and reading it back gives the same phase. */
  lemma PhaseRoundTrip(p: Phase)
    ensures PhaseOf(Record(p)) == Some(p)
  {
  }

  /** A persistent system notification as the hook creates it. */
  datatype Alert = Alert(title: string, body: string)

  function AlertTitle(slot: Slot): string {
    match slot
    case Morning => "Morning Routine Reminder"
    case Evening => "Evening Routine Reminder"
  }

  const BodyPrefix := "You have "
  const BodySuffix := " incomplete tasks. Please complete all items before dismissing."

  function AlertBody(count: nat): string {
    BodyPrefix + DecimalString(count) + BodySuffix
  }

  /** The body states the count in decimal between its fixed prefix and suffix. */
  lemma AlertBodyStatesCount(count: nat)
    ensures var b := AlertBody(count);
      && |BodyPrefix| + |BodySuffix| < |b|
      && b[..|BodyPrefix|] == BodyPrefix
      && b[|b| - |BodySuffix|..] == BodySuffix
      && IsDigits(b[|BodyPrefix|..|b| - |BodySuffix|])
      && DecimalValue(b[|BodyPrefix|..|b| - |BodySuffix|]) == count
  {
    var b := AlertBody(count);
    var d := DecimalString(count);
    assert b[|BodyPrefix|..|b| - |BodySuffix|] == d;
    DecimalRoundTrip(count);
  }

  /** A new record together with the system notifications created on the way. */
  datatype Fired = Fired(state: NotificationState, alerts: seq<Alert>)

  /**
   * `triggerPersistentNotification(type)`: without permission, or when no task
   * of the slot is incomplete, nothing happens; otherwise one alert naming the
   * number of incomplete tasks is created and the record becomes active for
   * the slot since `now`, whatever it was before.
   */
  function Trigger(s: NotificationState, b: Board, slot: Slot, permission: bool, now: int): (r: Fired)
    ensures !permission || AllCompleted(TasksFor(b, slot)) ==> r == Fired(s, [])
    ensures permission && !AllCompleted(TasksFor(b, slot)) ==>
      && r.state == Record(Active(slot, now))
      && r.alerts == [Alert(AlertTitle(slot), AlertBody(|Incomplete(TasksFor(b, slot))|))]
      && |Incomplete(TasksFor(b, slot))| > 0
    ensures Consistent(s) ==> Consistent(r.state)
  {
    if !permission then Fired(s, [])
    else
      var open := Incomplete(TasksFor(b, slot));
      AllCompletedIffNoneIncomplete(TasksFor(b, slot));
      if |open| > 0 then
        Fired(NotificationState(true, Some(slot), Some(now)), [Alert(AlertTitle(slot), AlertBody(|open|))])
      else
        Fired(s, [])
  }

  /**
   * The once-a-minute `checkTime`: the morning check fires when the clock
   * string equals the morning time, the record is inactive and a morning task
   * is open; the evening check does the same with the night time and the night
   * list. Both checks read the record as it was before the tick, so when both
   * times are equal both may fire and the evening write, coming last, wins.
   */
  function ClockTick(s: NotificationState, b: Board, times: ReminderTimes, clock: string,
                     permission: bool, now: int): (r: Fired)
    ensures var fireMorning := clock == times.morning && !s.isActive && permission && !AllCompleted(b.morning);
      var fireEvening := clock == times.night && !s.isActive && permission && !AllCompleted(b.night);
      && |r.alerts| == (if fireMorning then 1 else 0) + (if fireEvening then 1 else 0)
      && (fireMorning ==> r.alerts[0] == Alert(AlertTitle(Morning), AlertBody(|Incomplete(b.morning)|)))
      && (fireEvening ==> r.alerts[|r.alerts| - 1] == Alert(AlertTitle(Evening), AlertBody(|Incomplete(b.night)|)))
      && r.state == (if fireEvening then Record(Active(Evening, now))
                     else if fireMorning then Record(Active(Morning, now))
                     else s)
    ensures Consistent(s) ==> Consistent(r.state)
  {
    var morning :=
      if clock == times.morning && !s.isActive && !AllCompleted(b.morning)
      then Trigger(s, b, Morning, permission, now)
      else Fired(s, []);
    var evening :=
      if clock == times.night && !s.isActive && !AllCompleted(b.night)
      then Trigger(morning.state, b, Evening, permission, now)
      else Fired(morning.state, []);
    Fired(evening.state, morning.alerts + evening.alerts)
  }

  /**
   * The effect that clears the reminder: when the record is active and every
   * task of its slot is completed, it returns to the cleared record; otherwise
   * it stays as it is.
   */
  function AutoClear(s: NotificationState, b: Board): (r: NotificationState)
    ensures s.isActive && s.kind.Some? && AllCompleted(TasksFor(b, s.kind.value)) ==> r == Cleared
    ensures !(s.isActive && s.kind.Some? && AllCompleted(TasksFor(b, s.kind.value))) ==> r == s
    ensures Consistent(s) ==> Consistent(r)
  {
    if s.isActive && s.kind.Some? && AllCompleted(TasksFor(b, s.kind.value)) then Cleared else s
  }

  datatype Dismissal = Dismissal(state: NotificationState, accepted: bool)

  /**
   * `dismissNotification`: accepted, and the record cleared, exactly when a
   * type is set and every task of that slot is completed; otherwise refused
   * with the record unchanged. The check reads `type` only, not `isActive`.
   */
  function Dismiss(s: NotificationState, b: Board): (r: Dismissal)
    ensures r.accepted <==> s.kind.Some? && AllCompleted(TasksFor(b, s.kind.value))
    ensures r.accepted ==> r.state == Cleared
    ensures !r.accepted ==> r.state == s
    ensures Consistent(s) ==> Consistent(r.state)
  {
    if s.kind.Some? && AllCompleted(TasksFor(b, s.kind.value)) then Dismissal(Cleared, true)
    else Dismissal(s, false)
  }

  // ----- the hook over time -----

  /**
   * What can happen to the hook: a clock tick, new task lists, a dismiss click,
   * or new inputs (reminder times edited by the caller, or the permission the
   * mount effect obtains asynchronously).
   */
  datatype Event =
    | Tick(clock: string, now: int)
    | TasksChanged(board: Board)
    | DismissPressed
    | InputsChanged(times: ReminderTimes, permission: bool)

  /** Everything one step reads: the record, the task lists, the reminder times and permission. */
  datatype Hook = Hook(state: NotificationState, board: Board, times: ReminderTimes, permission: bool)

  /**
   * One event followed by the auto-clear effect, which re-runs whenever the
   * record or the task lists change.
   */
  function Step(h: Hook, e: Event): (r: Hook)
    ensures r.times == (if e.InputsChanged? then e.times else h.times)
    ensures r.permission == (if e.InputsChanged? then e.permission else h.permission)
    ensures r.board == (if e.TasksChanged? then e.board else h.board)
    ensures Consistent(h.state) ==> Consistent(r.state)
    ensures r.state.isActive && r.state.kind.Some? ==> !AllCompleted(TasksFor(r.board, r.state.kind.value))
    ensures e.DismissPressed? && h.state.kind.Some? && AllCompleted(TasksFor(h.board, h.state.kind.value)) ==>
      r.state == Cleared
  {
    match e
    case Tick(clock, now) =>
      var f := ClockTick(h.state, h.board, h.times, clock, h.permission, now);
      h.(state := AutoClear(f.state, h.board))
    case TasksChanged(board) =>
      h.(state := AutoClear(h.state, board), board := board)
    case DismissPressed =>
      h.(state := AutoClear(Dismiss(h.state, h.board).state, h.board))
    case InputsChanged(times, permission) =>
      h.(state := AutoClear(h.state, h.board), times := times, permission := permission)
  }

  /**
   * The hook after a sequence of events. Times and permission change only
   * through `InputsChanged`, the task lists only through `TasksChanged`, and since every step
   * ends with the auto-clear effect any non-empty run ends settled, whatever
   * the starting record was.
   */
  function Run(h: Hook, events: seq<Event>): (r: Hook)
    ensures (forall i :: 0 <= i < |events| ==> !events[i].InputsChanged?) ==>
      r.times == h.times && r.permission == h.permission
    ensures (forall i :: 0 <= i < |events| ==> !events[i].TasksChanged?) ==> r.board == h.board
    ensures Consistent(h.state) ==> Consistent(r.state)
    ensures |events| > 0 ==> Settled(r)
    decreases |events|
  {
    if |events| == 0 then h else Run(Step(h, events[0]), events[1..])
  }

  /** The settled condition: an active reminder always has an open task of its slot. */
  predicate Settled(h: Hook) {
    h.state.isActive && h.state.kind.Some? ==> !AllCompleted(TasksFor(h.board, h.state.kind.value))
  }

  /** Every step keeps the record's fields in agreement and leaves the hook settled. */
  lemma StepKeepsInvariants(h: Hook, e: Event)
    requires Consistent(h.state) && Settled(h)
    ensures Consistent(Step(h, e).state) && Settled(Step(h, e))
  {
  }

  /** Any run of events from a consistent, settled hook keeps the record consistent and the hook settled. */
  lemma {:induction false} RunKeepsInvariants(h: Hook, events: seq<Event>)
    requires Consistent(h.state) && Settled(h)
    ensures Consistent(Run(h, events).state) && Settled(Run(h, events))
    decreases |events|
  {
    if |events| > 0 {
      StepKeepsInvariants(h, events[0]);
      RunKeepsInvariants(Step(h, events[0]), events[1..]);
    }
  }

  /**
   * In a settled hook a dismiss click is always refused: an active reminder
   * still has open tasks, and an idle record has no type.
   */
  lemma SettledDismissRefused(h: Hook)
    requires Consistent(h.state) && Settled(h)
    ensures !Dismiss(h.state, h.board).accepted
  {
  }

  /** Completing the last open task of the active slot clears the reminder in the same step. */
  lemma CompletingClears(h: Hook, board: Board)
    requires Consistent(h.state) && h.state.isActive
    requires AllCompleted(TasksFor(board, h.state.kind.value))
    ensures Step(h, TasksChanged(board)).state == Cleared
  {
  }
}

=== FILE: optional.dfy ===
/** Values that may be absent: the task stamps that are `null`, the signed-out user, and request fields that may be absent. */
module Optional {

  datatype Option<+T> = None | Some(value: T)
}

=== FILE: reminder_scenarios.dfy ===
/**
 * End-to-end runs of the reminder hook, assuming it is mounted over the
 * page's task lists and fed the page's task operations. The page component
 * itself never mounts the hook; these runs compose the two as the hook's
 * parameters (morning tasks, night tasks, reminder times) invite. They show a
 * reminder that fires, refuses a dismissal, and clears itself once the last
 * task is checked off; an empty list that never fires; and a manual reset that
 * leaves an active reminder in place.
 */
module ReminderScenarios {
  import opened Tasks
  import opened IndexPage
  import opened NotificationSystem

  /** A hook mounted over the page's initial lists starts with the cleared record and is settled. */
  lemma InitialHookSettled(permission: bool)
    ensures var h := Hook(Cleared, InitialBoard, DefaultReminderTimes, permission);
      Consistent(h.state) && Settled(h) && !AllCompleted(h.board.morning) && !AllCompleted(h.board.night)
  {
    assert !InitialMorning[0].completed && !InitialNight[0].completed;
  }

  const Two := Board([Fresh("1", "Turn off lights"), Fresh("2", "Turn off gas oven")], [])

  /**
   * Two open morning tasks: the 06:30 tick activates the morning reminder, a
   * dismissal is refused and changes nothing, and checking both tasks off
   * clears the reminder without any dismissal.
   */
  lemma TwoTaskMorning(now: int, t1: int, t2: int)
    ensures var h0 := Hook(Cleared, Two, DefaultReminderTimes, true);
      var h1 := Step(h0, Tick("06:30", now));
      var refused := Dismiss(h1.state, h1.board);
      var b2 := Toggle(h1.board, "1", true, t1);
      var h2 := Step(h1, TasksChanged(b2));
      var b3 := Toggle(b2, "2", true, t2);
      var h3 := Step(h2, TasksChanged(b3));
      && h1.state == Record(Active(Morning, now))
      && !refused.accepted && refused.state == h1.state
      && h2.state == h1.state
      && h3.state == Cleared
  {
    var h0 := Hook(Cleared, Two, DefaultReminderTimes, true);
    assert !AllCompleted(Two.morning) by { assert !Two.morning[0].completed; }
    var h1 := Step(h0, Tick("06:30", now));
    assert DefaultReminderTimes.night != "06:30";
    assert h1.state == Record(Active(Morning, now));
    var b2 := Toggle(h1.board, "1", true, t1);
    assert b2.morning[1] == Two.morning[1];
    assert !AllCompleted(b2.morning) by { assert !b2.morning[1].completed; }
    var b3 := Toggle(b2, "2", true, t2);
    assert b3.morning[0].completed && b3.morning[1].completed;
  }

  /** A slot with no tasks never activates: trigger finds nothing open. */
  lemma EmptySlotNeverFires(h: Hook, slot: Slot, now: int)
    requires |TasksFor(h.board, slot)| == 0
    ensures Trigger(h.state, h.board, slot, h.permission, now) == Fired(h.state, [])
  {
  }

  /**
   * A manual reset while a reminder is active for a non-empty list leaves the
   * reminder active: the reset list is incomplete again.
   */
  lemma ResetKeepsActiveReminder(h: Hook)
    requires Consistent(h.state) && h.state.isActive
    requires |TasksFor(h.board, h.state.kind.value)| > 0
    ensures Step(h, TasksChanged(ResetDaily(h.board))).state == h.state
  {
    var slot := h.state.kind.value;
    var reset := ResetDaily(h.board);
    assert |TasksFor(reset, slot)| > 0;
    assert !TasksFor(reset, slot)[0].completed;
  }
}

=== FILE: reminder_time_route.dfy ===
/**
 * The reminder-time endpoints (server/routes/reminderTime.js) over the
 * ReminderTime collection, kept as a sequence of documents in their natural
 * order: `findOne` returns the first match, an upsert that finds nothing
 * appends. Document-store calls other than these are not modelled.
 */
module ReminderTimeRoute {
  import opened Optional
  import opened Text
  import opened Tasks

  /** One destructured piece of `time.split(':').map(Number)`; `Missing` is `undefined`. */
  datatype Field = Missing | Value(number: JsNumber)

  /** A ReminderTime document: `timeOfDay`, `hour`, `minute`. */
  datatype Doc = Doc(timeOfDay: Slot, hour: Field, minute: Field)

  type Store = seq<Doc>

  /** `const [hour, minute] = time.split(':').map(Number)`. There is no range check. */
  function ParseTime(time: string): (r: (Field, Field))
    ensures ':' !in time ==> r == (Value(ToNumber(time)), Missing)
    ensures r.0.Value?
  {
    var pieces := Split(time, ':');
    if ':' !in time then
      assert pieces == [time] by { SplitJoin([time], ':'); }
      (Value(ToNumber(pieces[0])), Missing)
    else
      (Value(ToNumber(pieces[0])), if |pieces| >= 2 then Value(ToNumber(pieces[1])) else Missing)
  }

  lemma DigitsAreTrimmed(s: string)
    requires IsDigits(s)
    ensures Trim(s) == s
  {
    assert !IsWhitespace(s[0]) && !IsWhitespace(s[|s| - 1]);
    assert TrimStart(s) == s;
    assert TrimEnd(s) == s;
  }

  /** For "HH:MM" with two digit groups the hour and minute are their decimal values. */
  lemma ParseTimeDigits(h: string, m: string)
    requires IsDigits(h) && IsDigits(m)
    ensures ParseTime(h + ":" + m) == (Value(Int(DecimalValue(h))), Value(Int(DecimalValue(m))))
  {
    var s := h + ":" + m;
    assert ':' !in h && ':' !in m;
    assert Join([h, m], ':') == s;
    SplitJoin([h, m], ':');
    assert ':' in s by { assert s[|h|] == ':'; }
    DigitsAreTrimmed(h);
    DigitsAreTrimmed(m);
  }

  /** Out-of-range values pass straight through: "25:99" parses to hour 25, minute 99. */
  lemma NoRangeCheck()
    ensures ParseTime("25:99") == (Value(Int(25)), Value(Int(99)))
  {
    assert IsDigits("25") && IsDigits("99");
    ParseTimeDigits("25", "99");
    assert "25" + ":" + "99" == "25:99";
    assert DecimalValue("2") == 2;
    assert "25"[..1] == "2";
    assert "99"[..1] == "9";
    assert DecimalValue("9") == 9;
  }

  /** The position of the first document of a slot, if any: what `findOne({timeOfDay})` finds. */
  function FirstIndex(store: Store, slot: Slot): (r: Option<nat>)
    ensures r.Some? ==> r.value < |store| && store[r.value].timeOfDay == slot
    ensures r.Some? ==> forall j :: 0 <= j < r.value ==> store[j].timeOfDay != slot
    ensures r.None? ==> forall j :: 0 <= j < |store| ==> store[j].timeOfDay != slot
  {
    if |store| == 0 then None
    else if store[0].timeOfDay == slot then Some(0)
    else match FirstIndex(store[1..], slot)
      case Some(k) => Some(k + 1)
      case None => None
  }

  function Lookup(store: Store, slot: Slot): Option<Doc> {
    match FirstIndex(store, slot)
    case Some(k) => Some(store[k])
    case None => None
  }

  /** At most one document per slot. */
  predicate UniqueSlots(store: Store) {
    forall i, j :: 0 <= i < j < |store| ==> store[i].timeOfDay != store[j].timeOfDay
  }

  /**
   * `findOneAndUpdate({timeOfDay: slot}, {hour, minute, timeOfDay: slot}, {upsert: true})`:
   * the first document of the slot takes the values; with none, one is appended.
   * Every other document is left alone, so no second document appears for a slot
   * that already had one.
   */
  function Upsert(store: Store, slot: Slot, hour: Field, minute: Field): (r: Store)
    ensures Lookup(r, slot) == Some(Doc(slot, hour, minute))
    ensures FirstIndex(store, slot).Some? ==>
      && |r| == |store|
      && forall i :: 0 <= i < |store| && i != FirstIndex(store, slot).value ==> r[i] == store[i]
    ensures FirstIndex(store, slot).None? ==> r == store + [Doc(slot, hour, minute)]
    ensures forall other :: other != slot ==> Lookup(r, other) == Lookup(store, other)
    ensures UniqueSlots(store) ==> UniqueSlots(r)
  {
    var d := Doc(slot, hour, minute);
    match FirstIndex(store, slot)
    case Some(k) =>
      var r := store[k := d];
      assert FirstIndex(r, slot) == Some(k) by { FirstIndexAfterWrite(store, k, d); }
      forall other | other != slot ensures Lookup(r, other) == Lookup(store, other) {
        FirstIndexOtherSlot(store, k, d, other);
      }
      r
    case None =>
      var r := store + [d];
      FirstIndexAppend(store, d, slot);
      forall other | other != slot ensures Lookup(r, other) == Lookup(store, other) {
        FirstIndexAppendOther(store, d, other);
      }
      r
  }

  lemma {:induction false} FirstIndexAfterWrite(store: Store, k: nat, d: Doc)
    requires k < |store| && FirstIndex(store, d.timeOfDay) == Some(k)
    ensures FirstIndex(store[k := d], d.timeOfDay) == Some(k)
  {
    if k > 0 {
      assert store[k := d][1..] == store[1..][k - 1 := d];
      FirstIndexAfterWrite(store[1..], k - 1, d);
    }
  }

  lemma {:induction false} FirstIndexOtherSlot(store: Store, k: nat, d: Doc, other: Slot)
    requires k < |store| && store[k].timeOfDay == d.timeOfDay && other != d.timeOfDay
    ensures FirstIndex(store[k := d], other) == FirstIndex(store, other)
    ensures Lookup(store[k := d], other) == Lookup(store, other)
  {
    if |store| > 0 && k > 0 {
      assert store[k := d][1..] == store[1..][k - 1 := d];
      FirstIndexOtherSlot(store[1..], k - 1, d, other);
    }
  }

  lemma {:induction false} FirstIndexAppend(store: Store, d: Doc, slot: Slot)
    requires d.timeOfDay == slot && FirstIndex(store, slot).None?
    ensures FirstIndex(store + [d], slot) == Some(|store|)
  {
    if |store| > 0 {
      assert (store + [d])[1..] == store[1..] + [d];
      FirstIndexAppend(store[1..], d, slot);
    }
  }

  lemma {:induction false} FirstIndexAppendOther(store: Store, d: Doc, other: Slot)
    requires d.timeOfDay != other
    ensures FirstIndex(store + [d], other) == FirstIndex(store, other)
    ensures Lookup(store + [d], other) == Lookup(store, other)
  {
    if |store| > 0 {
      assert (store + [d])[1..] == store[1..] + [d];
      FirstIndexAppendOther(store[1..], d, other);
    }
  }

  /** The request body; a field the client left out is `None`. */
  datatype PostBody = PostBody(morning: Option<string>, night: Option<string>)

  /**
   * Why a POST ends without its `{success: true}` reply: `split` on a missing
   * field throws, and the reschedule call names `scheduleJobs`, which the
   * scheduler module does not export, so calling it throws.
   */
  datatype PostError = MissingTime | RescheduleUnavailable

  datatype Reply = Succeeded | Threw(error: PostError)

  datatype PostOutcome = PostOutcome(store: Store, reply: Reply)

  /**
   * POST: both strings are parsed before any write; a missing one throws and
   * the store is untouched. Then the morning string is upserted as the
   * `morning` document and the night string as the `evening` document, and the
   * reschedule call throws after both writes.
   */
  function Post(store: Store, body: PostBody): (r: PostOutcome)
    ensures body.morning.None? || body.night.None? ==> r == PostOutcome(store, Threw(MissingTime))
    ensures body.morning.Some? && body.night.Some? ==>
      && r.reply == Threw(RescheduleUnavailable)
      && Lookup(r.store, Morning) == Some(Doc(Morning, ParseTime(body.morning.value).0, ParseTime(body.morning.value).1))
      && Lookup(r.store, Evening) == Some(Doc(Evening, ParseTime(body.night.value).0, ParseTime(body.night.value).1))
    ensures UniqueSlots(store) ==> UniqueSlots(r.store)
    ensures |store| <= |r.store| <= |store| + 2
    ensures r.reply != Succeeded
  {
    match (body.morning, body.night)
    case (Some(morning), Some(night)) =>
      var (mh, mm) := ParseTime(morning);
      var (nh, nm) := ParseTime(night);
      var s1 := Upsert(store, Morning, mh, mm);
      var s2 := Upsert(s1, Evening, nh, nm);
      PostOutcome(s2, Threw(RescheduleUnavailable))
    case _ => PostOutcome(store, Threw(MissingTime))
  }

  /** With a well-formed body the new values reach the store although the request fails. */
  lemma PostWritesDespiteFailure(store: Store, mh: string, mm: string, nh: string, nm: string)
    requires IsDigits(mh) && IsDigits(mm) && IsDigits(nh) && IsDigits(nm)
    ensures var r := Post(store, PostBody(Some(mh + ":" + mm), Some(nh + ":" + nm)));
      && r.reply == Threw(RescheduleUnavailable)
      && Lookup(r.store, Morning) == Some(Doc(Morning, Value(Int(DecimalValue(mh))), Value(Int(DecimalValue(mm)))))
      && Lookup(r.store, Evening) == Some(Doc(Evening, Value(Int(DecimalValue(nh))), Value(Int(DecimalValue(nm)))))
  {
    ParseTimeDigits(mh, mm);
    ParseTimeDigits(nh, nm);
  }

  datatype GetOutcome = GetOutcome(store: Store, reply: Option<Doc>)

  /**
   * GET: the first document of the collection, whatever its slot, is returned
   * and nothing changes; only an empty collection creates one. The creation
   * is an opaque store call whose result is an input (`None` when it is refused).
   */
  function Get(store: Store, created: Option<Doc>): (r: GetOutcome)
    ensures |store| > 0 ==> r == GetOutcome(store, Some(store[0]))
    ensures |store| == 0 && created.Some? ==> r == GetOutcome([created.value], created)
    ensures |store| == 0 && created.None? ==> r == GetOutcome(store, None)
  {
    if |store| > 0 then GetOutcome(store, Some(store[0]))
    else match created
      case Some(d) => GetOutcome([d], Some(d))
      case None => GetOutcome(store, None)
  }

  /** A second GET never creates another document: it returns what the first returned. */
  lemma GetCreatesAtMostOnce(store: Store, c1: Option<Doc>, c2: Option<Doc>)
    requires Get(store, c1).reply.Some?
    ensures var first := Get(store, c1);
      Get(first.store, c2) == first
  {
  }
}

=== FILE: scheduler.dfy ===
/**
 * The server's daily reminder job (server/jobs/scheduler.js): a fixed cron
 * schedule, and a fan-out that sends the same payload once to every stored
 * subscription. The push call is an input that reports delivery or failure.
 */
module Scheduler {
  import opened Optional
  import opened Text

  /** The browser push subscription, kept as the opaque serialized object the store holds. */
  type Endpoint = string

  /** A stored Subscription document. */
  datatype Subscription = Subscription(subscription: Endpoint, userName: Option<string>, createdAt: int)

  datatype Payload = Payload(title: string, body: string)

  const ReminderPayload := Payload("Daily Reminder", "Please ensure all your tasks are completed!")

  /**
   * `webPush.sendNotification` as seen by the job: true when the push service
   * accepts the message. The first argument is the attempt's position, so each
   * attempt has its own outcome, even for two stored copies of one subscription.
   */
  type Transport = (nat, Endpoint, Payload) -> bool

  /** One send attempt and whether the push service accepted it. */
  datatype Attempt = Attempt(endpoint: Endpoint, payload: Payload, delivered: bool)

  /** The number of attempts whose error was caught and logged. */
  function FailureCount(attempts: seq<Attempt>): (n: nat)
    ensures n <= |attempts|
    ensures n == 0 <==> forall i :: 0 <= i < |attempts| ==> attempts[i].delivered
  {
    if |attempts| == 0 then 0
    else (if attempts[0].delivered then 0 else 1) + FailureCount(attempts[1..])
  }

  lemma {:induction false} FailureCountAppend(a: seq<Attempt>, x: Attempt)
    ensures FailureCount(a + [x]) == FailureCount(a) + (if x.delivered then 0 else 1)
  {
    if |a| > 0 {
      assert (a + [x])[1..] == a[1..] + [x];
      FailureCountAppend(a[1..], x);
    }
  }

  /**
   * `sendReminder`: every stored subscription gets exactly one attempt with the
   * fixed payload, in store order; a failed send is caught and logged and the
   * remaining subscriptions are still tried. No subscriptions, no attempts.
   */
  method SendReminder(subs: seq<Subscription>, send: Transport)
    returns (attempts: seq<Attempt>, logged: nat)
    ensures |attempts| == |subs|
    ensures forall i :: 0 <= i < |subs| ==>
      attempts[i] == Attempt(subs[i].subscription, ReminderPayload, send(i, subs[i].subscription, ReminderPayload))
    ensures logged == FailureCount(attempts)
    ensures logged == 0 <==> forall i :: 0 <= i < |subs| ==> send(i, subs[i].subscription, ReminderPayload)
  {
    attempts := [];
    logged := 0;
    var i := 0;
    while i < |subs|
      invariant 0 <= i <= |subs|
      invariant |attempts| == i
      invariant forall j :: 0 <= j < i ==>
        attempts[j] == Attempt(subs[j].subscription, ReminderPayload, send(j, subs[j].subscription, ReminderPayload))
      invariant logged == FailureCount(attempts)
    {
      var endpoint := subs[i].subscription;
      var ok := send(i, endpoint, ReminderPayload);
      FailureCountAppend(attempts, Attempt(endpoint, ReminderPayload, ok));
      attempts := attempts + [Attempt(endpoint, ReminderPayload, ok)];
      if !ok {
        logged := logged + 1;
      }
      i := i + 1;
    }
  }

  /** Delivered attempts and logged failures together account for every attempt. */
  lemma {:induction false} DeliveredPlusFailed(a: seq<Attempt>)
    ensures FailureCount(a) + |set i | 0 <= i < |a| && a[i].delivered| == |a|
  {
    if |a| > 0 {
      var last := a[|a| - 1];
      var init := a[..|a| - 1];
      assert a == init + [last];
      DeliveredPlusFailed(init);
      FailureCountAppend(init, last);
      var before := set i | 0 <= i < |init| && init[i].delivered;
      var after := set i | 0 <= i < |a| && a[i].delivered;
      if last.delivered {
        assert after == before + {|a| - 1};
      } else {
        assert after == before;
      }
    }
  }

  // ----- the fixed schedule -----

  /** The cron expression the job is registered with; it never reads the stored reminder times. */
  const ReminderCron := "30 6,22 * * *"

  /** A cron field of the forms used here: `*` or a comma-separated list of decimal numbers. */
  predicate FieldMatches(field: string, v: nat) {
    field == "*" || ListMatches(Split(field, ','), v)
  }

  predicate ListMatches(items: seq<string>, v: nat) {
    exists i :: 0 <= i < |items| && IsDigits(items[i]) && DecimalValue(items[i]) == v
  }

  /**
   * Whether a five-field expression fires at a minute of the day, for
   * expressions whose day, month and weekday fields are all `*`.
   */
  predicate CronMatches(expr: string, hour: nat, minute: nat) {
    var fields := Split(expr, ' ');
    && |fields| == 5
    && FieldMatches(fields[0], minute)
    && FieldMatches(fields[1], hour)
    && fields[2] == "*" && fields[3] == "*" && fields[4] == "*"
  }

  lemma ReminderCronFields()
    ensures Split(ReminderCron, ' ') == ["30", "6,22", "*", "*", "*"]
  {
    var fields := ["30", "6,22", "*", "*", "*"];
    assert Join(["*"], ' ') == "*";
    assert Join(["*", "*"], ' ') == "* *";
    assert Join(["*", "*", "*"], ' ') == "* * *";
    assert Join(["6,22", "*", "*", "*"], ' ') == "6,22 * * *";
    assert Join(fields, ' ') == ReminderCron;
    SplitJoin(fields, ' ');
  }

  lemma MinuteFieldMatches(minute: nat)
    ensures FieldMatches("30", minute) <==> minute == 30
  {
    assert Join(["30"], ',') == "30";
    SplitJoin(["30"], ',');
    assert DecimalValue("3") == 3 && "30"[..1] == "3";
    assert DecimalValue("30") == 30;
    assert IsDigits("30");
    if minute == 30 {
      assert ListMatches(["30"], minute) by { assert ["30"][0] == "30"; }
    }
  }

  lemma HourFieldMatches(hour: nat)
    ensures FieldMatches("6,22", hour) <==> hour == 6 || hour == 22
  {
    var hours := ["6", "22"];
    assert Join(hours, ',') == "6,22";
    SplitJoin(hours, ',');
    assert DecimalValue("2") == 2 && "22"[..1] == "2";
    assert DecimalValue("22") == 22;
    assert DecimalValue("6") == 6;
    assert IsDigits(hours[0]) && IsDigits(hours[1]);
    if hour == 6 {
      assert ListMatches(hours, hour) by { assert DecimalValue(hours[0]) == hour; }
    }
    if hour == 22 {
      assert ListMatches(hours, hour) by { assert DecimalValue(hours[1]) == hour; }
    }
  }

  /** The job fires exactly at 06:30 and 22:30, whatever times are stored. */
  lemma ReminderScheduleFires(hour: nat, minute: nat)
    ensures CronMatches(ReminderCron, hour, minute) <==> minute == 30 && (hour == 6 || hour == 22)
  {
    ReminderCronFields();
    MinuteFieldMatches(minute);
    HourFieldMatches(hour);
  }
}

=== FILE: seqs.dfy ===
/** Order-preserving selection over sequences: JavaScript's `Array.prototype.filter`. */
module Seqs {

  /** The elements of `s` that `keep` accepts, in their original order. */
  function Filter<T(==,!new)>(keep: T -> bool, s: seq<T>): (r: seq<T>)
    ensures |r| <= |s|
    ensures forall x :: x in r <==> x in s && keep(x)
    ensures forall i :: 0 <= i < |r| ==> keep(r[i])
    ensures multiset(r) <= multiset(s)
  {
    if |s| == 0 then []
    else
      assert s == [s[0]] + s[1..];
      if keep(s[0]) then [s[0]] + Filter(keep, s[1..])
    else Filter(keep, s[1..])
  }

  /** Filtering distributes over concatenation, so relative order is kept. */
  lemma {:induction false} FilterConcat<T(!new)>(keep: T -> bool, a: seq<T>, b: seq<T>)
    ensures Filter(keep, a + b) == Filter(keep, a) + Filter(keep, b)
  {
    if |a| == 0 {
      assert a + b == b;
    } else {
      assert (a + b)[1..] == a[1..] + b;
      FilterConcat(keep, a[1..], b);
    }
  }

  /** A filter that accepts every element returns the sequence itself. */
  lemma {:induction false} FilterKeepsAll<T(!new)>(keep: T -> bool, s: seq<T>)
    requires forall i :: 0 <= i < |s| ==> keep(s[i])
    ensures Filter(keep, s) == s
  {
    if |s| > 0 {
      FilterKeepsAll(keep, s[1..]);
    }
  }

  /** The filter is empty exactly when no element is accepted. */
  lemma FilterEmptyIff<T(!new)>(keep: T -> bool, s: seq<T>)
    ensures |Filter(keep, s)| == 0 <==> forall i :: 0 <= i < |s| ==> !keep(s[i])
  {
    if |Filter(keep, s)| > 0 {
      assert Filter(keep, s)[0] in s;
    } else {
      forall i | 0 <= i < |s|
        ensures !keep(s[i])
      {
        assert s[i] in s;
      }
    }
  }
}

=== FILE: task_management.dfy ===
/** Adding, editing and deleting tasks of one list (src/components/TaskManagement.tsx). */
module TaskManagement {
  import opened Optional
  import opened Seqs
  import opened Text
  import opened Tasks

  /**
   * `handleAddTask`: with non-blank input, the list gains one new incomplete,
   * unstamped task at its end, carrying the trimmed text and the id the caller
   * supplies (the component derives it from the clock). Blank input produces no
   * update at all (`None`).
   */
  function AddTask(tasks: seq<Task>, input: string, newId: string): (r: Option<seq<Task>>)
    ensures r.None? <==> IsBlank(input)
    ensures r.Some? ==> |r.value| == |tasks| + 1
    ensures r.Some? ==> r.value[..|tasks|] == tasks
    ensures r.Some? ==> r.value[|tasks|] == Task(newId, Trim(input), false, None, None)
    ensures r.Some? ==> !IsBlank(r.value[|tasks|].text)
    ensures r.Some? && AllWellStamped(tasks) ==> AllWellStamped(r.value)
  {
    if IsBlank(input) then None
    else
      TrimmedNotBlank(input);
      var added := Task(newId, Trim(input), false, None, None);
      if AllWellStamped(tasks) then
        AppendKeepsWellStamped(tasks, added);
        Some(tasks + [added])
      else
        Some(tasks + [added])
  }

  /**
   * `handleEditTask`: tasks with the id get `newText` exactly as given (it is
   * not trimmed); every other field, every other task and the length are kept.
   */
  function EditTask(tasks: seq<Task>, id: string, newText: string): (r: seq<Task>)
    ensures |r| == |tasks|
    ensures forall i :: 0 <= i < |tasks| ==>
      if tasks[i].id == id then r[i] == tasks[i].(text := newText) else r[i] == tasks[i]
    ensures AllWellStamped(tasks) ==> AllWellStamped(r)
    ensures AllCompleted(r) <==> AllCompleted(tasks)
  {
    seq(|tasks|, i requires 0 <= i < |tasks| =>
      if tasks[i].id == id then tasks[i].(text := newText) else tasks[i])
  }

  predicate HasId(t: Task, id: string) {
    t.id == id
  }

  /** `handleDeleteTask`: `tasks.filter(task => task.id !== id)`. */
  function DeleteTask(tasks: seq<Task>, id: string): (r: seq<Task>)
    ensures forall t :: t in r <==> t in tasks && t.id != id
    ensures |r| <= |tasks|
    ensures AllWellStamped(tasks) ==> AllWellStamped(r)
  {
    Filter(t => !HasId(t, id), tasks)
  }

  /** Deleting an id no task carries leaves the list as it was. */
  lemma DeleteAbsentUnchanged(tasks: seq<Task>, id: string)
    requires forall i :: 0 <= i < |tasks| ==> tasks[i].id != id
    ensures DeleteTask(tasks, id) == tasks
  {
    FilterKeepsAll(t => !HasId(t, id), tasks);
  }

  /** Deleting the same id twice is the same as deleting it once. */
  lemma DeleteIdempotent(tasks: seq<Task>, id: string)
    ensures DeleteTask(DeleteTask(tasks, id), id) == DeleteTask(tasks, id)
  {
    DeleteAbsentUnchanged(DeleteTask(tasks, id), id);
  }

  /** Deletion keeps the surviving tasks in their order: it works piecewise on a split list. */
  lemma DeleteKeepsOrder(a: seq<Task>, b: seq<Task>, id: string)
    ensures DeleteTask(a + b, id) == DeleteTask(a, id) + DeleteTask(b, id)
  {
    FilterConcat(t => !HasId(t, id), a, b);
  }
}

=== FILE: task_section.dfy ===
/**
 * The per-list card: completed count, the "all done" mark, the progress ratio
 * and the rows it renders (src/components/TaskSection.tsx).
 */
module TaskSection {
  import opened Optional
  import opened Seqs
  import opened Tasks
  import IndexPage

  /** `tasks.filter(task => task.completed).length`. */
  function CompletedCount(tasks: seq<Task>): (n: nat)
    ensures n == |CompletedPositions(tasks)|
    ensures n <= |tasks|
    ensures n == |tasks| <==> AllCompleted(tasks)
    ensures n == 0 <==> forall i :: 0 <= i < |tasks| ==> !tasks[i].completed
  {
    CountBounds(tasks);
    CountIsCompletedPositions(tasks);
    FilterEmptyIff(IsDone, tasks);
    |CompletedOf(tasks)|
  }

  /** The length of the completed filter is the number of positions holding a completed task. */
  lemma {:induction false} CountIsCompletedPositions(tasks: seq<Task>)
    ensures |CompletedOf(tasks)| == |CompletedPositions(tasks)|
  {
    if |tasks| > 0 {
      var init := tasks[..|tasks| - 1];
      var last := tasks[|tasks| - 1];
      assert tasks == init + [last];
      CountIsCompletedPositions(init);
      CompletedOfSnoc(init, last);
      CompletedPositionsSnoc(init, last);
    }
  }

  /** The positions of the list that hold a completed task. */
  function CompletedPositions(tasks: seq<Task>): set<int> {
    set i | 0 <= i < |tasks| && tasks[i].completed
  }

  lemma CompletedOfSnoc(init: seq<Task>, last: Task)
    ensures |CompletedOf(init + [last])| == |CompletedOf(init)| + (if last.completed then 1 else 0)
  {
    FilterConcat(IsDone, init, [last]);
  }

  lemma CompletedPositionsSnoc(init: seq<Task>, last: Task)
    ensures |CompletedPositions(init + [last])| == |CompletedPositions(init)| + (if last.completed then 1 else 0)
  {
    var tasks := init + [last];
    if last.completed {
      assert CompletedPositions(tasks) == CompletedPositions(init) + {|init|};
    } else {
      assert CompletedPositions(tasks) == CompletedPositions(init);
    }
  }

  lemma {:induction false} CountBounds(tasks: seq<Task>)
    ensures |CompletedOf(tasks)| == |tasks| <==> AllCompleted(tasks)
  {
    if |tasks| > 0 {
      CountBounds(tasks[1..]);
      assert tasks == [tasks[0]] + tasks[1..];
      FilterConcat(IsDone, [tasks[0]], tasks[1..]);
    }
  }

  /**
   * The check mark beside the title: all tasks completed and at least one task,
   * which is the hook's completion predicate restricted to non-empty lists.
   */
  function AllDone(tasks: seq<Task>): (r: bool)
    ensures r <==> AllCompleted(tasks) && |tasks| > 0
  {
    CompletedCount(tasks) == |tasks| && |tasks| > 0
  }

  /** An empty list is "complete" for the reminder but never shows the mark. */
  lemma EmptyListCompleteButNotDone()
    ensures AllCompleted([]) && !AllDone([])
  {
  }

  /**
   * `(completed / total) * 100`; an empty list divides zero by zero, which
   * JavaScript turns into NaN, modelled as `None`.
   */
  function Progress(tasks: seq<Task>): (r: Option<real>)
    ensures r.None? <==> |tasks| == 0
    ensures r.Some? ==> 0.0 <= r.value <= 100.0
    ensures r.Some? ==> (r.value == 100.0 <==> AllCompleted(tasks))
    ensures r.Some? ==> (r.value == 0.0 <==> CompletedCount(tasks) == 0)
    ensures r.Some? ==> r.value * (|tasks| as real) == 100.0 * (CompletedCount(tasks) as real)
  {
    if |tasks| == 0 then None
    else
      var c := CompletedCount(tasks) as real;
      var t := |tasks| as real;
      RatioBounds(c, t);
      Some(c / t * 100.0)
  }

  lemma RatioBounds(c: real, t: real)
    requires 0.0 <= c <= t && t > 0.0
    ensures 0.0 <= c / t * 100.0 <= 100.0
    ensures c / t * 100.0 == 100.0 <==> c == t
    ensures c / t * 100.0 == 0.0 <==> c == 0.0
  {
    var p := c / t * 100.0;
    assert p == c * 100.0 / t;
    assert p * t == c * 100.0;
    assert c * 100.0 <= t * 100.0;
    if p == 100.0 { assert c * 100.0 == 100.0 * t; }
    if p == 0.0 { assert c * 100.0 == 0.0; }
  }

  /** One rendered task row with the id its click passes to the toggle. */
  datatype Row = Row(task: Task, toggleId: string)

  /** `tasks.map(task => <TaskItem onToggle={() => onToggleTask(task.id)} />)`. */
  function Rows(tasks: seq<Task>): (r: seq<Row>)
    ensures |r| == |tasks|
    ensures forall i :: 0 <= i < |r| ==> r[i].task == tasks[i] && r[i].toggleId == tasks[i].id
  {
    seq(|tasks|, i requires 0 <= i < |tasks| => Row(tasks[i], tasks[i].id))
  }

  /**
   * Clicking row `i` of a list with distinct ids flips that task and no other:
   * each row passes its own id.
   */
  lemma RowClickTogglesOwnTask(tasks: seq<Task>, i: int, user: string, now: int)
    requires DistinctIds(tasks) && 0 <= i < |tasks|
    ensures var r := IndexPage.ToggleTasks(tasks, Rows(tasks)[i].toggleId, user, now);
      && r[i].completed == !tasks[i].completed
      && forall j :: 0 <= j < |tasks| && j != i ==> r[j] == tasks[j]
  {
    var r := IndexPage.ToggleTasks(tasks, Rows(tasks)[i].toggleId, user, now);
    forall j | 0 <= j < |tasks| && j != i
      ensures r[j] == tasks[j]
    {
      if j < i { assert tasks[j].id != tasks[i].id; } else { assert tasks[i].id != tasks[j].id; }
    }
  }
}

=== FILE: tasks.dfy ===
/**
 * The routine-checklist data every component shares: a task record, the two
 * daily lists, and the completion predicate the reminder logic is built on.
 */
module Tasks {
  import opened Optional
  import opened Seqs

  /**
   * A checklist item. `completedBy` and `completedAt` are the stamps a toggle
   * writes; `completedAt` is an integer timestamp standing for the ISO string
   * the client keeps.
   */
  datatype Task = Task(
    id: string,
    text: string,
    completed: bool,
    completedBy: Option<string>,
    completedAt: Option<int>)

  /** One of the two daily occasions: the hook's `type` and the server's `timeOfDay`. */
  datatype Slot = Morning | Evening

  /** The morning list and the night list, side by side. */
  datatype Board = Board(morning: seq<Task>, night: seq<Task>)

  /** The list a slot is about; `Evening` reads the night list. */
  function TasksFor(b: Board, slot: Slot): seq<Task> {
    match slot
    case Morning => b.morning
    case Evening => b.night
  }

  /** `tasks.every(task => task.completed)`, evaluated front to back. */
  function AllCompleted(tasks: seq<Task>): (r: bool)
    ensures r <==> forall i :: 0 <= i < |tasks| ==> tasks[i].completed
    ensures |tasks| == 0 ==> r
  {
    if |tasks| == 0 then true else tasks[0].completed && AllCompleted(tasks[1..])
  }

  predicate IsOpen(t: Task) {
    !t.completed
  }

  predicate IsDone(t: Task) {
    t.completed
  }

  /** `tasks.filter(task => !task.completed)`. */
  function Incomplete(tasks: seq<Task>): seq<Task> {
    Filter(IsOpen, tasks)
  }

  /** `tasks.filter(task => task.completed)`. */
  function CompletedOf(tasks: seq<Task>): seq<Task> {
    Filter(IsDone, tasks)
  }

  /** The completion predicate holds exactly when nothing is left in the incomplete list. */
  lemma AllCompletedIffNoneIncomplete(tasks: seq<Task>)
    ensures AllCompleted(tasks) <==> |Incomplete(tasks)| == 0
  {
    FilterEmptyIff(IsOpen, tasks);
  }

  /**
   * The stamps agree with the flag: a completed task carries who and when, an
   * incomplete one carries neither. Every list operation keeps this.
   */
  predicate WellStamped(t: Task) {
    if t.completed then t.completedBy.Some? && t.completedAt.Some?
    else t.completedBy.None? && t.completedAt.None?
  }

  predicate AllWellStamped(tasks: seq<Task>) {
    forall i :: 0 <= i < |tasks| ==> WellStamped(tasks[i])
  }

  lemma AppendKeepsWellStamped(tasks: seq<Task>, t: Task)
    requires AllWellStamped(tasks) && WellStamped(t)
    ensures AllWellStamped(tasks + [t])
  {
  }

  /** No two tasks of the list share an id. */
  predicate DistinctIds(tasks: seq<Task>) {
    forall i, j :: 0 <= i < j < |tasks| ==> tasks[i].id != tasks[j].id
  }
}

/** The two reminder clock strings the page keeps, each "HH:MM". */
module Reminders {

  datatype ReminderTimes = ReminderTimes(morning: string, night: string)
}

=== FILE: text.dfy ===
/**
 * The handful of JavaScript string operations the application relies on:
 * `String.prototype.trim`, `String.prototype.split` with a one-character
 * separator, decimal digit strings, and the `Number(...)` conversion the
 * server applies to the pieces of an "HH:MM" string.
 */
module Text {

  /** WhiteSpace and LineTerminator of the ECMAScript grammar: what `trim` strips. */
  predicate IsWhitespace(c: char) {
    || c == '\t' || c == '\n' || c == '\U{B}' || c == '\U{C}' || c == '\r' || c == ' '
    || c == '\U{A0}' || c == '\U{1680}' || ('\U{2000}' <= c <= '\U{200A}')
    || c == '\U{2028}' || c == '\U{2029}' || c == '\U{202F}' || c == '\U{205F}'
    || c == '\U{3000}' || c == '\U{FEFF}'
  }

  predicate AllWhitespace(s: string) {
    forall i :: 0 <= i < |s| ==> IsWhitespace(s[i])
  }

  /** `s` without its leading whitespace. */
  function TrimStart(s: string): (r: string)
    ensures |r| <= |s|
    ensures AllWhitespace(s[..|s| - |r|])
    ensures |r| > 0 ==> !IsWhitespace(r[0])
  {
    if |s| > 0 && IsWhitespace(s[0]) then TrimStart(s[1..]) else s
  }

  /** What `TrimStart` leaves is a suffix of its input. */
  lemma {:induction false} TrimStartIsSuffix(s: string)
    ensures TrimStart(s) == s[|s| - |TrimStart(s)|..]
  {
    if |s| > 0 && IsWhitespace(s[0]) {
      TrimStartIsSuffix(s[1..]);
      assert s[1..][|s| - 1 - |TrimStart(s)|..] == s[|s| - |TrimStart(s)|..];
    }
  }

  /** `s` without its trailing whitespace. */
  function TrimEnd(s: string): (r: string)
    ensures |r| <= |s| && r == s[..|r|]
    ensures AllWhitespace(s[|r|..])
    ensures |r| > 0 ==> !IsWhitespace(r[|r| - 1])
  {
    if |s| > 0 && IsWhitespace(s[|s| - 1]) then TrimEnd(s[..|s| - 1]) else s
  }

  /**
   * `s.trim()`: what is left of `s` once the whitespace at both ends is gone.
   * It is empty exactly when `s` is all whitespace.
   */
  function Trim(s: string): (r: string)
    ensures |r| <= |s|
    ensures |r| > 0 ==> !IsWhitespace(r[0]) && !IsWhitespace(r[|r| - 1])
    ensures |r| == 0 <==> AllWhitespace(s)
  {
    var t := TrimStart(s);
    var r := TrimEnd(t);
    TrimStartIsSuffix(s);
    if |r| == 0 then
      assert t[|r|..] == t;
      AllWhitespaceStartingWithContentIsEmpty(t);
      assert s[..|s| - |t|] == s;
      r
    else
      assert r[0] in s && !IsWhitespace(r[0]);
      r
  }

  lemma AllWhitespaceStartingWithContentIsEmpty(t: string)
    requires AllWhitespace(t)
    requires |t| > 0 ==> !IsWhitespace(t[0])
    ensures |t| == 0
  {
  }

  /** `Trim(s)` is a slice of `s` with nothing but whitespace on either side of it. */
  lemma TrimIsSlice(s: string)
    ensures var k := |s| - |TrimStart(s)|;
      && k + |Trim(s)| <= |s|
      && Trim(s) == s[k..k + |Trim(s)|]
      && AllWhitespace(s[..k])
      && AllWhitespace(s[k + |Trim(s)|..])
  {
    var t := TrimStart(s);
    var r := Trim(s);
    var k := |s| - |t|;
    TrimStartIsSuffix(s);
    assert r == TrimEnd(t);
    assert t == s[k..];
    assert r == t[..|r|];
    assert t[..|r|] == s[k..k + |r|];
    assert t[|r|..] == s[k + |r|..];
  }

  /** JavaScript truthiness of `s.trim()`: blank means nothing but whitespace. */
  predicate IsBlank(s: string) {
    |Trim(s)| == 0
  }

  /** Trimming an already trimmed string changes nothing. */
  lemma TrimIdempotent(s: string)
    ensures Trim(Trim(s)) == Trim(s)
  {
    var r := Trim(s);
    if |r| > 0 {
      assert TrimStart(r) == r;
      assert TrimEnd(r) == r;
    }
  }

  /** A string with non-blank content keeps it after trimming: the trimmed value is itself not blank. */
  lemma TrimmedNotBlank(s: string)
    requires !IsBlank(s)
    ensures !IsBlank(Trim(s)) && Trim(Trim(s)) == Trim(s)
  {
    TrimIdempotent(s);
  }

  // ----- split and join on a one-character separator -----

  /**
   * `s.split(sep)` for a one-character separator: always at least one piece,
   * no piece contains the separator.
   */
  function Split(s: string, sep: char): (r: seq<string>)
    ensures |r| >= 1
    ensures forall i :: 0 <= i < |r| ==> sep !in r[i]
  {
    if |s| == 0 then [""]
    else
      var rest := Split(s[1..], sep);
      if s[0] == sep then [""] + rest
      else [[s[0]] + rest[0]] + rest[1..]
  }

  /** `parts.join(sep)`. */
  function Join(parts: seq<string>, sep: char): string
    requires |parts| >= 1
  {
    if |parts| == 1 then parts[0] else parts[0] + [sep] + Join(parts[1..], sep)
  }

  /** Splitting and joining back with the same separator gives the original string. */
  lemma {:induction false} JoinSplit(s: string, sep: char)
    ensures Join(Split(s, sep), sep) == s
  {
    if |s| > 0 {
      var rest := Split(s[1..], sep);
      JoinSplit(s[1..], sep);
      if s[0] == sep {
        assert Split(s, sep)[1..] == rest;
      } else {
        var r := Split(s, sep);
        assert r[0] == [s[0]] + rest[0];
        if |rest| == 1 {
          assert r == [[s[0]] + rest[0]];
        } else {
          assert r[1..] == rest[1..];
          assert Join(rest, sep) == rest[0] + [sep] + Join(rest[1..], sep);
        }
      }
    }
  }

  /** Splitting a separator-free prefix glued to a string extends the first piece. */
  lemma {:induction false} SplitPrefix(p: string, t: string, sep: char)
    requires sep !in p
    ensures Split(p + t, sep) == [p + Split(t, sep)[0]] + Split(t, sep)[1..]
  {
    if |p| > 0 {
      assert (p + t)[1..] == p[1..] + t;
      SplitPrefix(p[1..], t, sep);
      assert [p[0]] + (p[1..] + Split(t, sep)[0]) == p + Split(t, sep)[0];
    } else {
      assert p + t == t;
      assert p + Split(t, sep)[0] == Split(t, sep)[0];
      assert Split(t, sep) == [Split(t, sep)[0]] + Split(t, sep)[1..];
    }
  }

  /** Joining separator-free pieces and splitting again gives the pieces back. */
  lemma {:induction false} SplitJoin(parts: seq<string>, sep: char)
    requires |parts| >= 1
    requires forall i :: 0 <= i < |parts| ==> sep !in parts[i]
    ensures Split(Join(parts, sep), sep) == parts
  {
    if |parts| == 1 {
      SplitPrefix(parts[0], "", sep);
      assert parts[0] + "" == parts[0];
    } else {
      var tail := Join(parts[1..], sep);
      SplitJoin(parts[1..], sep);
      assert Split([sep] + tail, sep) == [""] + parts[1..];
      assert parts[0] + [sep] + tail == parts[0] + ([sep] + tail);
      SplitPrefix(parts[0], [sep] + tail, sep);
      assert parts[0] + "" == parts[0];
    }
  }

  // ----- decimal digits -----

  predicate IsDigit(c: char) {
    '0' <= c <= '9'
  }

  predicate AllDigits(s: string) {
    forall i :: 0 <= i < |s| ==> IsDigit(s[i])
  }

  /** A non-empty run of decimal digits. */
  predicate IsDigits(s: string) {
    |s| > 0 && AllDigits(s)
  }

  function DigitChar(d: nat): char
    requires d < 10
  {
    ('0' as int + d) as char
  }

  /** The decimal value of a digit string, most significant digit first. */
  function DecimalValue(s: string): nat
    requires AllDigits(s)
  {
    if |s| == 0 then 0
    else DecimalValue(s[..|s| - 1]) * 10 + (s[|s| - 1] as int - '0' as int)
  }

  /** The shortest decimal digit string of `n`, as JavaScript prints a non-negative integer. */
  function DecimalString(n: nat): (r: string)
    ensures IsDigits(r)
    ensures |r| > 1 ==> r[0] != '0'
  {
    if n < 10 then [DigitChar(n)] else DecimalString(n / 10) + [DigitChar(n % 10)]
  }

  /** Printing a number in decimal and reading the digits back gives the number. */
  lemma {:induction false} DecimalRoundTrip(n: nat)
    ensures DecimalValue(DecimalString(n)) == n
  {
    if n >= 10 {
      DecimalRoundTrip(n / 10);
      var s := DecimalString(n);
      assert s[..|s| - 1] == DecimalString(n / 10);
    }
  }

  // ----- Number(...) -----

  /**
   * The result of JavaScript's `Number(s)` as far as this model interprets it:
   * the non-negative integer of a string that, once trimmed, is empty or all
   * decimal digits; every other form (sign, fraction, exponent, hexadecimal,
   * `Infinity`, or a NaN) is kept as the text it came from.
   */
  datatype JsNumber = Int(value: nat) | Uninterpreted(text: string)

  function ToNumber(s: string): (r: JsNumber)
    ensures AllWhitespace(s) ==> r == Int(0)
    ensures IsDigits(Trim(s)) ==> r == Int(DecimalValue(Trim(s)))
    ensures r.Uninterpreted? <==> !AllDigits(Trim(s))
  {
    var t := Trim(s);
    if AllDigits(t) then Int(DecimalValue(t)) else Uninterpreted(s)
  }
}

=== FILE: user_data.dfy ===
/**
 * The household member registry (src/hooks/useUserData.ts). Browser storage
 * is a map from key to stored value; ids and timestamps, which the hook
 * draws from the clock and a random generator, are inputs.
 */
module UserData {
  import opened Optional

  datatype User = User(id: string, name: string, role: string, lastActive: int)

  /** A stored member record; members are saved with `isActive: false`. */
  datatype Member = Member(id: string, name: string, role: string, lastActive: int, isActive: bool)

  /** What one storage key holds once parsed. */
  datatype Stored = StoredUser(user: User) | StoredMembers(members: seq<Member>)

  type Storage = map<string, Stored>

  const CurrentUserKey := "currentUser"
  const MembersKey := "householdMembers"

  /** The hook's state: the signed-in user (always shown as active), the members, the first-time flag. */
  datatype Session = Session(current: Option<User>, members: seq<Member>, isFirstTime: bool)

  datatype Registry = Registry(session: Session, storage: Storage)

  const InitialSession := Session(None, [], true)

  function StoredCurrent(st: Storage): Option<User> {
    if CurrentUserKey in st && st[CurrentUserKey].StoredUser? then Some(st[CurrentUserKey].user) else None
  }

  /** `JSON.parse(localStorage.getItem(HOUSEHOLD_MEMBERS_KEY) || '[]')`. */
  function StoredMemberList(st: Storage): seq<Member> {
    if MembersKey in st && st[MembersKey].StoredMembers? then st[MembersKey].members else []
  }

  /**
   * The mount-time load: a saved user becomes the current user and clears the
   * first-time flag; a saved member list replaces the empty one.
   */
  function Load(st: Storage): (s: Session)
    ensures s.current == StoredCurrent(st)
    ensures s.isFirstTime <==> s.current.None?
    ensures s.members == StoredMemberList(st)
  {
    var withUser := match StoredCurrent(st)
      case Some(u) => InitialSession.(current := Some(u), isFirstTime := false)
      case None => InitialSession;
    if MembersKey in st && st[MembersKey].StoredMembers? then withUser.(members := st[MembersKey].members)
    else withUser
  }

  /** The state mirrors what is stored: reloading the page would show the same session. */
  predicate Synced(r: Registry) {
    Load(r.storage) == r.session
  }

  /** Some member already has this name and role. */
  predicate HasPair(members: seq<Member>, name: string, role: string) {
    exists i :: 0 <= i < |members| && members[i].name == name && members[i].role == role
  }

  /** No two members share both name and role. */
  predicate UniquePairs(members: seq<Member>) {
    forall i, j :: 0 <= i < j < |members| ==>
      !(members[i].name == members[j].name && members[i].role == members[j].role)
  }

  /**
   * `loginUser`: the new user becomes current and is saved; the stored member
   * list gains the user, inactive, unless a member with the same name and role
   * is already there, in which case the stored list is taken as it is.
   */
  function Login(r: Registry, name: string, role: string, newId: string, now: int): (r': Registry)
    ensures r'.session.current == Some(User(newId, name, role, now))
    ensures !r'.session.isFirstTime
    ensures var before := StoredMemberList(r.storage);
      if HasPair(before, name, role) then r'.session.members == before
      else r'.session.members == before + [Member(newId, name, role, now, false)]
    ensures Synced(r')
    ensures r'.storage.Keys == r.storage.Keys + {CurrentUserKey} + (if HasPair(StoredMemberList(r.storage), name, role) then {} else {MembersKey})
    ensures forall k :: k in r'.storage && k != CurrentUserKey && k != MembersKey ==> k in r.storage && r'.storage[k] == r.storage[k]
  {
    var user := User(newId, name, role, now);
    var st := r.storage[CurrentUserKey := StoredUser(user)];
    var existing := StoredMemberList(r.storage);
    if !HasPair(existing, name, role) then
      var updated := existing + [Member(newId, name, role, now, false)];
      Registry(Session(Some(user), updated, false), st[MembersKey := StoredMembers(updated)])
    else
      Registry(Session(Some(user), existing, false), st)
  }

  /** Logging in never puts a second member with the same name and role into the list. */
  lemma LoginKeepsPairsUnique(r: Registry, name: string, role: string, newId: string, now: int)
    requires UniquePairs(StoredMemberList(r.storage))
    ensures UniquePairs(Login(r, name, role, newId, now).session.members)
    ensures HasPair(Login(r, name, role, newId, now).session.members, name, role)
  {
    var existing := StoredMemberList(r.storage);
    var ms := Login(r, name, role, newId, now).session.members;
    if !HasPair(existing, name, role) {
      assert ms[|existing|].name == name && ms[|existing|].role == role;
      forall i, j | 0 <= i < j < |ms|
        ensures !(ms[i].name == ms[j].name && ms[i].role == ms[j].role)
      {
        if j == |existing| {
          assert ms[i] == existing[i];
        }
      }
    }
  }

  /**
   * A returning member logs in under a fresh id, while the stored record keeps
   * the old one, so the active-status view marks nobody as active.
   */
  lemma ReturningMemberNotMarkedActive(r: Registry, name: string, role: string, newId: string, now: int)
    requires HasPair(StoredMemberList(r.storage), name, role)
    requires forall i :: 0 <= i < |StoredMemberList(r.storage)| ==> StoredMemberList(r.storage)[i].id != newId
    ensures var v := WithActiveStatus(Login(r, name, role, newId, now).session);
      forall i :: 0 <= i < |v| ==> !v[i].isActive
  {
  }

  /**
   * `updateCurrentUserName`: without a current user nothing happens; otherwise
   * the current user and the members sharing its id take the new name, and
   * both are saved. Other members, other fields and the length are kept.
   */
  function Rename(r: Registry, newName: string): (r': Registry)
    ensures r.session.current.None? ==> r' == r
    ensures r.session.current.Some? ==>
      var id := r.session.current.value.id;
      && r'.session.current == Some(r.session.current.value.(name := newName))
      && |r'.session.members| == |r.session.members|
      && (forall i :: 0 <= i < |r.session.members| ==>
            r'.session.members[i] ==
              if r.session.members[i].id == id then r.session.members[i].(name := newName)
              else r.session.members[i])
      && r'.session.isFirstTime == r.session.isFirstTime
      && r'.storage.Keys == r.storage.Keys + {CurrentUserKey, MembersKey}
    ensures forall k :: k in r.storage && k != CurrentUserKey && k != MembersKey ==>
      k in r'.storage && r'.storage[k] == r.storage[k]
    ensures Synced(r) ==> Synced(r')
  {
    match r.session.current
    case None => r
    case Some(cur) =>
      var updated := cur.(name := newName);
      var ms := r.session.members;
      var members := seq(|ms|, i requires 0 <= i < |ms| =>
        if ms[i].id == cur.id then ms[i].(name := newName) else ms[i]);
      var st := r.storage[CurrentUserKey := StoredUser(updated)][MembersKey := StoredMembers(members)];
      Registry(r.session.(current := Some(updated), members := members), st)
  }

  /** `logoutUser`: the saved user is removed, the session forgets it, members stay. */
  function Logout(r: Registry): (r': Registry)
    ensures r'.session.current.None? && r'.session.isFirstTime
    ensures r'.session.members == r.session.members
    ensures r'.storage.Keys == r.storage.Keys - {CurrentUserKey}
    ensures forall k :: k in r'.storage ==> r'.storage[k] == r.storage[k]
    ensures Synced(r) ==> Synced(r')
  {
    Registry(r.session.(current := None, isFirstTime := true), r.storage - {CurrentUserKey})
  }

  /** `getHouseholdMembersWithActiveStatus`: active exactly for the member with the current user's id. */
  function WithActiveStatus(s: Session): (v: seq<Member>)
    ensures |v| == |s.members|
    ensures forall i :: 0 <= i < |v| ==>
      && v[i] == s.members[i].(isActive := v[i].isActive)
      && (v[i].isActive <==> s.current.Some? && s.current.value.id == s.members[i].id)
  {
    seq(|s.members|, i requires 0 <= i < |s.members| =>
      s.members[i].(isActive := s.current.Some? && s.current.value.id == s.members[i].id))
  }

  /** Mounting yields a registry in step with its storage. */
  lemma MountSynced(st: Storage)
    ensures Synced(Registry(Load(st), st))
  {
  }
}

=== FILE: user_onboarding.dfy ===
/**
 * The first-run form (src/components/UserOnboarding.tsx): submitting trims and
 * checks both fields, raises the submitting flag and schedules the completion
 * callback; when the half-second timer fires the callback runs and the flag
 * drops. The timer itself is an explicit event here.
 */
module UserOnboarding {
  import opened Optional
  import opened Text

  /** The values a scheduled `onComplete` call will receive. */
  datatype Profile = Profile(name: string, role: string)

  /** The form's inputs, its submitting flag, and the callbacks waiting on their timers, oldest first. */
  datatype Form = Form(name: string, role: string, isSubmitting: bool, scheduled: seq<Profile>)

  const InitialForm := Form("", "", false, [])

  /** Every waiting callback carries trimmed, non-blank values. */
  predicate ScheduledValid(f: Form) {
    forall i :: 0 <= i < |f.scheduled| ==>
      var p := f.scheduled[i];
      && p.name == Trim(p.name) && !IsBlank(p.name)
      && p.role == Trim(p.role) && !IsBlank(p.role)
  }

  /**
   * `handleSubmit`: when both trimmed fields are non-empty the flag rises and a
   * callback with the trimmed values is scheduled; a blank field does nothing.
   * The handler does not look at the flag itself.
   */
  function Submit(f: Form): (r: Form)
    ensures IsBlank(f.name) || IsBlank(f.role) ==> r == f
    ensures !IsBlank(f.name) && !IsBlank(f.role) ==>
      && r.isSubmitting
      && r.scheduled == f.scheduled + [Profile(Trim(f.name), Trim(f.role))]
      && r.name == f.name && r.role == f.role
    ensures ScheduledValid(f) ==> ScheduledValid(r)
  {
    if !IsBlank(f.name) && !IsBlank(f.role) then
      var p := Profile(Trim(f.name), Trim(f.role));
      TrimmedNotBlank(f.name);
      TrimmedNotBlank(f.role);
      f.(isSubmitting := true, scheduled := f.scheduled + [p])
    else f
  }

  datatype Completion = Completion(form: Form, called: Option<Profile>)

  /**
   * The timer fires for the oldest scheduled callback: `onComplete` runs with
   * its values and the flag drops. With nothing scheduled nothing happens.
   */
  function TimerFires(f: Form): (r: Completion)
    ensures |f.scheduled| == 0 ==> r == Completion(f, None)
    ensures |f.scheduled| > 0 ==>
      && r.called == Some(f.scheduled[0])
      && !r.form.isSubmitting
      && r.form.scheduled == f.scheduled[1..]
      && r.form.name == f.name && r.form.role == f.role
    ensures ScheduledValid(f) && r.called.Some? ==>
      var p := r.called.value;
      !IsBlank(p.name) && !IsBlank(p.role) && p.name == Trim(p.name) && p.role == Trim(p.role)
    ensures ScheduledValid(f) ==> ScheduledValid(r.form)
  {
    if |f.scheduled| == 0 then Completion(f, None)
    else Completion(f.(isSubmitting := false, scheduled := f.scheduled[1..]), Some(f.scheduled[0]))
  }

  /**
   * The submit button is disabled while a field is blank or a submission is
   * under way. An enabled button always leads to an accepted submission; a
   * disabled one with the flag down stands for a submit that would do nothing.
   */
  function SubmitDisabled(f: Form): (r: bool)
    ensures f.isSubmitting ==> r
    ensures !r ==> Submit(f).isSubmitting && |Submit(f).scheduled| == |f.scheduled| + 1
    ensures r && !f.isSubmitting ==> Submit(f) == f
  {
    IsBlank(f.name) || IsBlank(f.role) || f.isSubmitting
  }

  /** A blank submit leaves the flag down and schedules nothing. */
  lemma BlankSubmitDoesNothing(f: Form)
    requires IsBlank(f.name) || IsBlank(f.role)
    requires !f.isSubmitting && |f.scheduled| == 0
    ensures var r := Submit(f); !r.isSubmitting && |r.scheduled| == 0 && SubmitDisabled(r)
  {
  }

  /**
   * From a fresh form, an accepted submit raises the flag and disables the
   * button; the timer then calls back once with the trimmed values and the
   * flag is down again.
   */
  lemma SubmitThenTimer(name: string, role: string)
    requires !IsBlank(name) && !IsBlank(role)
    ensures var submitted := Submit(InitialForm.(name := name, role := role));
      var done := TimerFires(submitted);
      && submitted.isSubmitting && SubmitDisabled(submitted)
      && done.called == Some(Profile(Trim(name), Trim(role)))
      && !done.form.isSubmitting && |done.form.scheduled| == 0
  {
    var submitted := Submit(InitialForm.(name := name, role := role));
    assert submitted.scheduled == [Profile(Trim(name), Trim(role))];
  }
}
